=== FILE: README.md ===
# ClearCall in Dafny

ClearCall listens to a phone call in the browser and watches it for scams. It has four parts:

- A Whisper model in a web worker turns microphone audio into text.
- A polling component sends the transcript to a chat-completion service every few seconds.
- The same component keeps a short history of the alerts that come back.
- A small Mongoose-backed store logs finished calls.

This project models the logic of those four parts. Each is a pure step function over immutable state. Results from the network, the model runtime, the clock and the microphone are passed in as parameters. Dafny proves the contracts below.

Modules:

- `Base`: `Option`, `Result` and `Min`.
- `JsValue`: the JavaScript values the code passes around. This covers truthiness, `||`, a property read that gives `undefined` when the key is absent, and `String(v || '')`.
- `JsString`: `trim()`, ASCII `toLowerCase()` and `includes()`. Each scan is proved against an index-based reference.
- `JsArray`: `Array.prototype.slice` with relative indices, plus its prefix and suffix cases.
- `OpenAIService` (`src/services/openaiService.js`): the lazily built client, `analyzeText` with its normalisation and its error paths, and the text buffer.
- `TextAnalyzer` (`src/components/TextAnalyzer.jsx`): the empty-response filter, the tick gate, the 10-entry alert history and the `lastAnalyzedText`/`isAnalyzing` bookkeeping.
- `Worker` (`src/worker.js`):
  - the pipeline cache. It stores each fetch's promise, so a failed fetch is never retried.
  - the `load` message sequence.
  - `generate`, with its `processing` guard and the token counter and rate rule.
  - the message dispatcher.
- `App` (`src/App.jsx`):
  - the page's reducer for worker messages and the progress list.
  - the recorder callbacks and the transcription effect with its `MAX_SAMPLES` tail window.
  - the load button, the 10-second snapshot, and the `/api/analyze` result fallback.
- `CallLog` (`dbtest/model/Call.js`): the schema's required and immutable fields, `logCall` with its `sus` rule, and `returnCall`.
- `Protocol`: what the page ends up showing after it consumes everything the worker posts for one `load` or `generate`.

Two behaviours of the analysis loop are easy to misread:

- A polling tick sends at most one request. It sends nothing for a non-empty transcript in three cases: the text equals the last analysed text, a request is still in flight, or the trimmed text is empty. `TextAnalyzer.Begin` and `TextAnalyzer.Tick` state this.
- Every reply that contains "no response" anywhere, in any letter case, is filtered from the alert list. So is every reply whose trimmed form is exactly `[`. `TextAnalyzer.AlertIffReference` states this rule.

## Model

| member | source | states |
|---|---|---|
| JsValue.Coerce | src/components/TextAnalyzer.jsx:23 | `String(v \|\| "")` is "" for every falsy value and the string itself for a string; a non-empty result comes only from a truthy value |
| JsString.Trim | src/components/TextAnalyzer.jsx:12 | the trimmed text is a contiguous window of the input that contains every non-white-space character of the input and neither starts nor ends with white space |
| JsString.IncludesIffOccurs | src/components/TextAnalyzer.jsx:14 | the left-to-right `includes` scan answers true exactly when the pattern occurs at some index |
| JsString.LowerAscii | src/components/TextAnalyzer.jsx:14 | lower-casing keeps the length and maps each character on its own: A-Z to a-z, every other character unchanged |
| JsArray.Slice | src/components/TextAnalyzer.jsx:43 | `slice(start, end)` resolves negative indices from the end and clamps both to the array; the result is the elements from the resolved start up to the resolved end, in order, and empty when the end is not past the start |
| JsArray.SlicePrefix | src/components/TextAnalyzer.jsx:43 | `slice(0, n)` is the first n elements, or the whole array when it is shorter |
| JsArray.SliceSuffix | src/App.jsx:171 | `slice(-n)` is the last n elements, or the whole array when it is shorter |
| OpenAIService.InitializeClient | src/services/openaiService.js:6-13 | afterwards a client exists; an existing client is kept; at most one client is built |
| OpenAIService.AnalyzeText | src/services/openaiService.js:15-51 | blank or falsy text sends no request and yields null; otherwise exactly one request goes out, with model gpt-4o-mini, max_tokens 4095 and the trimmed text as user content; it yields the first choice's content with the trimmed text; it rethrows an API error unchanged; with no choices it throws a TypeError |
| OpenAIService.ClientBuiltAtMostOnce | src/services/openaiService.js:6-21 | over any sequence of `analyzeText` calls the client is constructed at most once |
| OpenAIService.UpdateTextBuffer | src/services/openaiService.js:53-55 | updating the buffer leaves the client untouched |
| OpenAIService.TextBufferRoundTrip | src/services/openaiService.js:53-59 | `getTextBuffer` returns the string last stored, "" after a falsy value; a second update overrides the first |
| TextAnalyzer.IsEmptyResponse | src/components/TextAnalyzer.jsx:10-17 | a missing analysis is empty; a present one is empty exactly when its trimmed text is "" or a lone `[`, or its trimmed, lower-cased text contains "no response"; `AlertIffReference` restates this over the untrimmed text |
| TextAnalyzer.NoResponseIgnoresPadding | src/components/TextAnalyzer.jsx:12-14 | searching the trimmed, lower-cased text for "no response" finds it exactly when the lower-cased untrimmed text contains it somewhere |
| TextAnalyzer.LoneBracketIffTrimmed | src/components/TextAnalyzer.jsx:12-15 | the trimmed text is `[` exactly when the text is one `[` surrounded by white space only |
| TextAnalyzer.AlertIffReference | src/components/TextAnalyzer.jsx:10-17 | a present analysis is kept exactly when it is not all white space, does not contain "no response" in any case, and is not a lone `[` |
| TextAnalyzer.MissingOrBlankIsEmpty | src/components/TextAnalyzer.jsx:11-13 | a missing analysis or one made of white space only is filtered |
| TextAnalyzer.NoResponseAnywhereIsEmpty | src/components/TextAnalyzer.jsx:14 | any text containing "no response" in any letter case is filtered |
| TextAnalyzer.BracketedNoResponseIsEmpty | src/components/TextAnalyzer.jsx:14 | the prompt's own safe-call answer `[No response]` is filtered |
| TextAnalyzer.PaddedBracketIsEmpty | src/components/TextAnalyzer.jsx:15 | a `[` padded with blanks and a newline is filtered |
| TextAnalyzer.DoubleBracketIsAlert | src/components/TextAnalyzer.jsx:15-16 | `[[` is not a lone bracket and is kept |
| TextAnalyzer.PlainAlertIsAlert | src/components/TextAnalyzer.jsx:10-17 | an ordinary alert message is kept |
| TextAnalyzer.Begin | src/components/TextAnalyzer.jsx:23-31 | a tick is skipped exactly when the coerced text is empty, equals the last analysed text, or a request is in flight; otherwise it marks a request in flight and changes nothing else |
| TextAnalyzer.Record | src/components/TextAnalyzer.jsx:36-44 | the new alert goes first, the previous ones follow in order, and the list is cut at 10 |
| TextAnalyzer.RecordShape | src/components/TextAnalyzer.jsx:36-44 | recording is the alert followed by at most the 9 newest previous entries |
| TextAnalyzer.Finish | src/components/TextAnalyzer.jsx:32-51 | a request is made exactly for non-blank text, carrying the trimmed text; a throw keeps history and last text; otherwise the text is remembered; only a non-empty analysis is recorded; the in-flight flag is always cleared |
| TextAnalyzer.RecordKeepsValid | src/components/TextAnalyzer.jsx:35-44 | recording a kept alert into a valid history keeps it at most 10 entries, none of them empty responses |
| TextAnalyzer.FinishKeepsValid | src/components/TextAnalyzer.jsx:32-51 | finishing a tick preserves the history invariant |
| TextAnalyzer.Tick | src/components/TextAnalyzer.jsx:21-52 | a skipped tick changes nothing and sends nothing; a started one sends a request exactly when `String(text \|\| "")` is not blank, with the trimmed text as content; it always ends with no request in flight; after a throw the last analysed text and the alerts are unchanged, otherwise the coerced text becomes the last analysed text; one alert with the reply, the timestamp and the trimmed text is added exactly when the reply is not an empty response |
| TextAnalyzer.TickKeepsValid | src/components/TextAnalyzer.jsx:21-52 | every tick preserves: at most 10 alerts, none an empty response |
| TextAnalyzer.InFlightBlocksTick | src/components/TextAnalyzer.jsx:24-31 | while a request is in flight every further tick is skipped, whatever the text |
| TextAnalyzer.BlankTextIsRememberedNotSent | src/components/TextAnalyzer.jsx:33-46 | white-space-only text sends no request, adds no alert, becomes the last analysed text, and is not sent on the next tick either |
| TextAnalyzer.FailureKeepsTextEligible | src/components/TextAnalyzer.jsx:47-51 | after a failed request the state is as before, so the next tick sends the same request again |
| Worker.GetInstance | src/worker.js:17-37 | only components not yet started are fetched; started ones keep their outcome; the pipeline resolves exactly when all three fetches succeeded |
| Worker.ProgressPosts | src/worker.js:86-90 | each library progress event becomes one 'loading' message carrying it, in order |
| Worker.ToObject | src/worker.js:46-103 | the object posted carries the message's status; 'loading' and 'error' carry `data`; 'update' carries `output`, `tps` and `numTokens`; 'complete' carries `output`; 'start' and 'ready' carry nothing else |
| Worker.Load | src/worker.js:82-105 | 'loading' "Loading model..." first, then the forwarded progress events when a fetch started, then "Compiling shaders and warming up model..." once the pipeline is there; every message but the last is 'loading' and the last is 'ready' or 'error' carrying the error's message; 'ready' exactly when all fetches and the warm-up succeed; a newly started fetch takes its outcome, already started ones are untouched |
| Worker.FailedLoadIsSticky | src/worker.js:21-36 | once a fetch has failed, every later load ends in 'error' |
| Worker.Stream | src/worker.js:53-60 | one 'update' per token carrying its output; the counter is the number of tokens so far; the rate is undefined only for the very first token |
| Worker.Generate | src/worker.js:42-80 | while processing, nothing happens; a failed fetch posts only 'start'; a processor or model failure posts 'start' and one update per token; a success posts 'start', one update per token and one 'complete' with the decoded output; only a success clears `processing`; new fetches take their outcome, started ones are untouched |
| Worker.GenerateMessageOrder | src/worker.js:46-79 | 'start' always comes first, updates are numbered from 1 with no rate on the first, 'complete' can only be last, and `processing` is cleared exactly when 'complete' was posted |
| Worker.ThrowBlocksLaterGenerates | src/worker.js:43-79 | a generate whose processor or model throws leaves `processing` set, so every later generate does nothing |
| Worker.OnMessage | src/worker.js:107-118 | 'load' runs load; 'generate' with data runs generate; 'generate' without data does nothing; unknown types do nothing; no started fetch is ever restarted |
| Worker.StartedStaysCached | src/worker.js:21-34 | over any message sequence a started component is never fetched again and keeps its outcome |
| Worker.FetchedAtMostOnce | src/worker.js:21-34 | over any message sequence each component is fetched at most once |
| App.MergeProgress | src/App.jsx:78-87 | 'progress' overlays the message onto every item with the same file and leaves the other items and the order alone |
| App.RemoveFile | src/App.jsx:88-90 | 'done' keeps exactly the items for other files |
| App.RemoveFileKeepsOrder | src/App.jsx:89 | filtering distributes over concatenation, so the kept items keep their order |
| App.RemoveFileIdempotent | src/App.jsx:89 | a repeated 'done' for the same file changes nothing |
| App.MergeThenRemove | src/App.jsx:78-90 | 'progress' followed by 'done' for a file leaves the same list as 'done' alone |
| App.OnMessage | src/App.jsx:69-108 | the effect of each of the eight statuses on page state and on the recorder; any other status changes nothing |
| App.UnhandledStatusIsIgnored | src/App.jsx:70-107 | a status outside the eight handled ones leaves the page untouched |
| App.MountRecorderAsWritten | src/App.jsx:119-157 | with the guard as written, a page without a recorder returns at once and never gets one |
| App.MountRecorder | src/App.jsx:119-157 | with the guard corrected, a recorder exists afterwards exactly when one existed or microphone access was granted; nothing else changes |
| App.OnRecorderStart | src/App.jsx:130-133 | starting the recorder sets recording and empties the chunk list; nothing else changes |
| App.OnDataAvailable | src/App.jsx:134-142 | a non-empty blob is appended to the chunks; an empty one changes nothing and asks for data again; no other field ever changes |
| App.OnRecorderStop | src/App.jsx:144-146 | stopping clears recording; nothing else changes |
| App.AudioWindow | src/App.jsx:169-172 | the audio sent is the last min(length, MAX_SAMPLES) samples; a short clip is sent whole |
| App.MaxSamplesIs480000 | src/App.jsx:8-10 | 30 seconds at 16 kHz is 480000 samples |
| App.TranscriptionStep | src/App.jsx:159-179 | the page posts generate exactly when a recorder exists, recording, not processing, ready, with chunks and decoded audio; it asks for data exactly when there are no chunks; it posts the audio window and the chosen language |
| App.LoadClick | src/App.jsx:231-238 | before any status the button posts `{type: 'load'}` and sets 'loading'; afterwards it is disabled |
| App.SnapshotTick | src/App.jsx:31-39 | when ready the snapshot copies the text into the analysed text; otherwise nothing changes |
| App.FetchAnalysis | src/App.jsx:41-60 | a request is sent exactly when the text is truthy, carrying the text; the shown result is the reply's `result` when truthy and 'No result' otherwise; without a reply nothing changes; no other field changes |
| App.FetchAnalysisIdempotent | src/App.jsx:41-60 | running the effect again with the same reply sends the same request and shows the same result |
| App.SelectLanguage | src/App.jsx:260-268 | choosing a language stores it, changes nothing else, and stops and restarts the recorder when there is one |
| App.SelectedLanguageIsPosted | src/App.jsx:260-268 | the language chosen in the selector is the one the next transcription request carries in its `data` (line 173) |
| App.ResetRecorder | src/App.jsx:269-277 | Reset stops and restarts the recorder when there is one and leaves the page state alone |
| App.AsWrittenNeverTranscribes | src/App.jsx:119-120 | with the guard as written, a ready, recording page with audio never posts a generate |
| App.CorrectedTranscribes | src/App.jsx:119-173 | with the corrected guard and microphone access, 'ready' starts the recorder and the first audio is posted for transcription in English |
| App.ConnectWorker | src/App.jsx:62-67 | the effect creates a worker only while the ref is empty and otherwise keeps the ref |
| App.DisconnectWorkerAsWritten | src/App.jsx:112-116 | the cleanup as written terminates any existing worker and leaves it in the ref |
| App.DisconnectWorker | src/App.jsx:112-116 | the corrected cleanup leaves the worker alone on a re-run and clears the ref on unmount |
| App.TerminatedStaysTerminated | src/App.jsx:62-116 | as written, a terminated worker is never replaced, however often the effect re-runs |
| App.AfterRenderAsWritten | src/App.jsx:62-117 | as written, a render re-runs the worker effect, cleanup first, exactly when `status` or `text` changed (the dependency list at line 117); otherwise the ref is untouched |
| App.AfterRender | src/App.jsx:62-117 | with the corrected cleanup, a render re-runs the worker effect exactly when `status` or `text` changed; otherwise the ref is untouched |
| App.AsWrittenLoadIsKilled | src/App.jsx:62-117 | as written, the re-render the load click causes terminates the worker created at mount, and it stays terminated through any later re-runs |
| App.CorrectedWorkerSurvives | src/App.jsx:62-117 | with the corrected cleanup the worker created at mount is alive after any number of re-runs |
| App.CorrectedLoadSurvivesClick | src/App.jsx:62-117 | with the corrected cleanup, the worker the load was posted to is still alive after the click's re-render and after any number of later re-runs |
| CallLog.RequiredFieldsDeclared | dbtest/model/Call.js:5-32 | the required fields are transcript, llmoutput, sus, userid and phonenumber |
| CallLog.ImmutableFieldsDeclared | dbtest/model/Call.js:14-31 | the immutable fields are logdate and phonenumber |
| CallLog.ImmutableByName | dbtest/model/Call.js:14-31 | logdate and phonenumber are immutable |
| CallLog.MutableByName | dbtest/model/Call.js:5-26 | transcript, llmoutput, sus and userid may be changed |
| CallLog.Suspicious | dbtest/model/Call.js:35-40 | a call is non-suspicious exactly when the model output file is empty |
| CallLog.WhitespaceOutputIsSuspicious | dbtest/model/Call.js:38-40 | output of white space only still counts as suspicious |
| CallLog.LogCall | dbtest/model/Call.js:34-54 | logging succeeds exactly when both files read and the save succeeds; on success it returns true and appends one record holding both contents, the user, the number, the current date and the sus flag, keeping the earlier records; a missing file reports which one |
| CallLog.ApplyPatch | dbtest/model/Call.js:14-31 | an update never changes logdate or phonenumber; it sets each mutable field it supplies and keeps each one it leaves out |
| CallLog.ReturnCall | dbtest/model/Call.js:56-59 | every stored call is returned, in insertion order, whoever asks |
| CallLog.LoggedCallIsReturnedToEveryone | dbtest/model/Call.js:34-59 | a call just logged is returned, exactly as built, to any user |
| Protocol.WorkerPostsKnownStatus | src/worker.js:42-105 | each worker message carries one of the statuses 'loading', 'ready', 'error', 'start', 'update', 'complete' |
| Protocol.WorkerNeverTouchesProgressItems | src/worker.js:86-90 | the worker forwards progress events as 'loading', so none of its messages changes the page's progress list |
| Protocol.WorkerErrorIsIgnored | src/worker.js:101-104 | the page has no case for 'error', so a failed load leaves it untouched |
| Protocol.UpdatesOnlyChangeRate | src/App.jsx:99-102 | any run of 'update' messages changes only the displayed rate |
| Protocol.StartOnPage | src/App.jsx:95-98 | 'start' sets processing and nothing else |
| Protocol.CompleteOnPage | src/App.jsx:103-106 | 'complete' clears processing and shows the output, nothing else |
| Protocol.StartThenUpdates | src/App.jsx:95-102 | 'start' followed by updates leaves the page processing with only the rate changed |
| Protocol.GenerateKeepsPageInStep | src/worker.js:42-80 | after a generate the page shows processing exactly when the worker is still processing; a finished run shows the completed output; status and progress list are unchanged |
| Protocol.LoadOutcomeReachesPage | src/worker.js:82-105 | after a load the page is ready exactly when the worker posted 'ready'; after an error it stays on 'loading'; the progress list is unchanged |
| Protocol.LoadEndOnPage | src/App.jsx:91-94 | a final 'ready' shows the page ready; a final 'error' leaves its status alone; the progress list is unchanged either way |
| Protocol.AllLoadingGivesLoading | src/App.jsx:71-74 | any non-empty run of 'loading' messages leaves the page on 'loading' with its progress list unchanged |
| Protocol.LoadButtonReachesWorker | src/App.jsx:234-236 | the message the load button posts makes the worker run load |
| Protocol.TranscriptionRequestReachesGenerate | src/App.jsx:173 | the message the transcription effect posts makes the worker run generate |

## Left out

- React scheduling: the general scheduling of effects, re-renders and timers is not modelled. A tick, a snapshot, a recorder callback or a worker message is one atomic step. The one exception is the worker effect: its re-run, cleanup first, on a change of `status` or `text` is modelled by `App.AfterRenderAsWritten`, `App.AfterRender`, `App.RerunsAsWritten` and `App.Reruns`.
- The worker effect's cleanup (src/App.jsx:112-116) runs on every change of `status` or `text`. It terminates the worker and keeps it in `worker.current`, so the effect body at line 63 never creates another one. The first such change is the load click's `setStatus('loading')` at line 236, so the load the click posted never finishes. This is recorded under "## Findings". `Protocol` and `Worker` describe the corrected page, where the worker outlives re-renders. The interval clean-up at line 114 is left out.
- Async interleavings: `load`, `generate` and `analyzeText` run to completion as single steps. Two `generate` calls cannot interleave in the model. In the code the `processing` flag, which is set before the first `await`, has the same effect.
- Vendor and I/O calls are parameters. These are the OpenAI client, the transformers.js fetches, warm-up and decoding, `getUserMedia`, `FileReader`, `decodeAudioData`, `fetch('/api/analyze')`, `readFileSync`, Mongoose `save`/`find`, `Date.now()` and `performance.now()`.
- Worker.GetInstance: progress events are forwarded only for fetches started in the same `load` call. A progress callback left over from an earlier call is not modelled.
- Worker.Load: the model puts every progress event before the final message. In the code the three fetches run under `Promise.all`, which rejects as soon as one fails, so progress events of the other downloads can still arrive after 'error'.
- Worker.Stream: tokens per second is a rate supplied per token as an integer. Floating point, `performance.now()` and the division are left out.
- Numbers: JavaScript numbers are integers in the model. NaN, fractions and `toFixed` display are left out.
- JsString.LowerAscii: only A-Z are lower-cased. Beyond ASCII, only U+212A and U+0130 lower-case into ASCII. Neither can complete "no response", so the filter's verdict does not depend on the rest.
- Array identity: arrays and objects compare by content, not by reference.
- OpenAIService.AnalyzeText: a choice whose content is not a string is represented as a missing one. A throwing OpenAI constructor is not modelled.
- App.FetchAnalysis: the JSON request body and the `response.json()` parse are left out. A failed fetch leaves `result` unchanged, as the unhandled rejection does.
- App.SelectLanguage and App.ResetRecorder: the recorder's stop and start are commands the page issues. The recorder's own reaction to them is the `onstop` and `onstart` callbacks, modelled separately. Rendering, the WebGPU check and logging are left out.
- CallLog.ReturnCall: the collection is taken to be in insertion order. `find({})` has no sort, and MongoDB does not promise its natural order, so only the membership of the returned calls is what the code guarantees.
- CallLog: Mongoose validation and casting are left out. The model takes the required fields as present with the declared types. It does not type-check `userid` and `phonenumber` at save time.
- src/components/MessageAnalyzer.jsx and dbtest/index.js are not part of this model.

## Findings

| source | as written | input that shows it | evidently intended | confidence | as-written member | corrected member |
|---|---|---|---|---|---|---|
| src/App.jsx:120 | `if (!recorderRef.current) return;` makes the mount effect return when no recorder exists yet | the first and only mount: the ref is null, so the effect returns, no MediaRecorder is ever created, and the generate gate at line 160 never opens | `if (recorderRef.current) return;` ("Already set"): return only when a recorder already exists | high, not executed | App.AsWrittenNeverTranscribes | App.CorrectedTranscribes |
| src/App.jsx:112-116 | the worker effect's cleanup, run before each re-run caused by `status` or `text`, calls `terminate()` and leaves the worker in `worker.current`, so line 63 never creates a new one | clicking "Load model": line 236 sets `status`, the cleanup terminates the worker the `load` message was just posted to, and the page stays on 'loading' for good | a re-run only swaps the message listener; the worker is terminated, and the ref cleared, when the page unmounts | medium, not executed | App.AsWrittenLoadIsKilled | App.CorrectedLoadSurvivesClick |

=== FILE: app.dfy ===
/**
  The page component of src/App.jsx, as step functions: the handler for messages
  from the worker, the recorder callbacks, the effect that posts a transcription
  request (with the audio cut to the last thirty seconds), the "Load model"
  button, and the transcript analysis request with its result fallback.
  A step returns the new state and the recorder calls it makes.
 */
module App {
  import opened Base
  import opened JsValue
  import JsArray

  const WHISPER_SAMPLING_RATE := 16000
  const MAX_AUDIO_LENGTH := 30
  /** The longest audio window sent for transcription, in samples. */
  const MAX_SAMPLES := WHISPER_SAMPLING_RATE * MAX_AUDIO_LENGTH
  const DEFAULT_LANGUAGE := "en"
  const NO_RESULT := "No result"

  /** `status`: `null`, 'loading' or 'ready' (the only values ever assigned). */
  datatype Status = NoStatus | Loading | Ready

  /** Calls on the `MediaRecorder`. */
  datatype RecorderCommand = StartRecording | RequestData | StopRecording

  /** A recorded `Blob`, known by its size and identity. */
  datatype Chunk = Chunk(size: nat, id: nat)

  datatype AppState = AppState(
    status: Status,
    loadingMessage: Value,
    progressItems: seq<Object>,
    text: Value,
    tps: Value,
    isProcessing: bool,
    hasRecorder: bool,        // `recorderRef.current` is set
    recording: bool,
    chunks: seq<Chunk>,
    language: string,
    analyzedText: Value,
    result: Value)

  const Initial := AppState(NoStatus, Str(""), [], Str(""), Null, false, false, false, [], DEFAULT_LANGUAGE, Str(""), Str(""))

  /** A step's new state and the recorder calls it makes (`recorderRef.current?.…` calls only when a recorder exists). */
  datatype Reaction = Reaction(state: AppState, commands: seq<RecorderCommand>)

  function FileOf(item: Object): Value {
    Get(item, "file")
  }

  /** 'progress': every item for the same file becomes `{ ...item, ...e.data }`; the rest stay as they are. */
  function MergeProgress(items: seq<Object>, msg: Object): (r: seq<Object>)
    ensures |r| == |items|
    ensures forall i :: 0 <= i < |r| && FileOf(items[i]) != FileOf(msg) ==> r[i] == items[i]
    ensures forall i, k :: 0 <= i < |r| && FileOf(items[i]) == FileOf(msg) ==>
              Get(r[i], k) == (if k in msg then msg[k] else Get(items[i], k))
    ensures forall i :: 0 <= i < |r| ==> FileOf(r[i]) == FileOf(items[i])
  {
    seq(|items|, i requires 0 <= i < |items| =>
          if FileOf(items[i]) == FileOf(msg) then items[i] + msg else items[i])
  }

  /** 'done': `prev.filter(item => item.file !== e.data.file)`. */
  function RemoveFile(items: seq<Object>, file: Value): (r: seq<Object>)
    ensures |r| <= |items|
    ensures forall x :: x in r <==> x in items && FileOf(x) != file
    decreases |items|
  {
    if |items| == 0 then []
    else (if FileOf(items[0]) != file then [items[0]] else []) + RemoveFile(items[1..], file)
  }

  /** Removing distributes over concatenation, so the survivors keep their relative order. */
  lemma {:induction false} RemoveFileKeepsOrder(a: seq<Object>, b: seq<Object>, file: Value)
    ensures RemoveFile(a + b, file) == RemoveFile(a, file) + RemoveFile(b, file)
    decreases |a|
  {
    if |a| > 0 {
      assert (a + b)[1..] == a[1..] + b;
      RemoveFileKeepsOrder(a[1..], b, file);
    } else {
      assert a + b == b;
    }
  }

  /** A second 'done' for the same file changes nothing. */
  lemma {:induction false} RemoveFileIdempotent(items: seq<Object>, file: Value)
    ensures RemoveFile(RemoveFile(items, file), file) == RemoveFile(items, file)
    decreases |items|
  {
    if |items| > 0 {
      RemoveFileIdempotent(items[1..], file);
      var head := if FileOf(items[0]) != file then [items[0]] else [];
      RemoveFileKeepsOrder(head, RemoveFile(items[1..], file), file);
    }
  }

  /** Progress merged into the items of a file never changes which items a later 'done' for that file removes. */
  lemma {:induction false} MergeThenRemove(items: seq<Object>, msg: Object)
    ensures RemoveFile(MergeProgress(items, msg), FileOf(msg)) == RemoveFile(items, FileOf(msg))
    decreases |items|
  {
    if |items| > 0 {
      assert MergeProgress(items, msg)[1..] == MergeProgress(items[1..], msg);
      MergeThenRemove(items[1..], msg);
    }
  }

  /** `onMessageReceived`: the `switch` on `e.data.status`. */
  function OnMessage(app: AppState, msg: Object): (r: Reaction)
    ensures Get(msg, "status") == Str("loading") ==>
              r == Reaction(app.(status := Loading, loadingMessage := Get(msg, "data")), [])
    ensures Get(msg, "status") == Str("initiate") ==>
              && |r.state.progressItems| == |app.progressItems| + 1
              && r.state.progressItems[..|app.progressItems|] == app.progressItems
              && r.state.progressItems[|app.progressItems|] == msg
              && r.state == app.(progressItems := r.state.progressItems)
              && r.commands == []
    ensures Get(msg, "status") == Str("progress") ==>
              r == Reaction(app.(progressItems := MergeProgress(app.progressItems, msg)), [])
    ensures Get(msg, "status") == Str("done") ==>
              r == Reaction(app.(progressItems := RemoveFile(app.progressItems, FileOf(msg))), [])
    ensures Get(msg, "status") == Str("ready") ==>
              r.state == app.(status := Ready) && r.commands == (if app.hasRecorder then [StartRecording] else [])
    ensures Get(msg, "status") == Str("start") ==>
              r.state == app.(isProcessing := true) && r.commands == (if app.hasRecorder then [RequestData] else [])
    ensures Get(msg, "status") == Str("update") ==> r == Reaction(app.(tps := Get(msg, "tps")), [])
    ensures Get(msg, "status") == Str("complete") ==>
              r == Reaction(app.(isProcessing := false, text := Get(msg, "output")), [])
    ensures !Truthy(Get(msg, "status")) ==> r == Reaction(app, [])
    ensures r.commands == [] || r.commands == [StartRecording] || r.commands == [RequestData]
  {
    var status := Get(msg, "status");
    if status == Str("loading") then Reaction(app.(status := Loading, loadingMessage := Get(msg, "data")), [])
    else if status == Str("initiate") then Reaction(app.(progressItems := app.progressItems + [msg]), [])
    else if status == Str("progress") then Reaction(app.(progressItems := MergeProgress(app.progressItems, msg)), [])
    else if status == Str("done") then Reaction(app.(progressItems := RemoveFile(app.progressItems, FileOf(msg))), [])
    else if status == Str("ready") then Reaction(app.(status := Ready), if app.hasRecorder then [StartRecording] else [])
    else if status == Str("start") then Reaction(app.(isProcessing := true), if app.hasRecorder then [RequestData] else [])
    else if status == Str("update") then Reaction(app.(tps := Get(msg, "tps")), [])
    else if status == Str("complete") then Reaction(app.(isProcessing := false, text := Get(msg, "output")), [])
    else Reaction(app, [])
  }

  /** The statuses the handler has a case for. */
  const HANDLED_STATUSES: set<string> :=
    {"loading", "initiate", "progress", "done", "ready", "start", "update", "complete"}

  /** A message whose status has no case, such as the worker's 'error', changes nothing and calls nothing. */
  lemma UnhandledStatusIsIgnored(app: AppState, msg: Object)
    requires forall s :: s in HANDLED_STATUSES ==> Get(msg, "status") != Str(s)
    ensures OnMessage(app, msg) == Reaction(app, [])
  {
    assert "loading" in HANDLED_STATUSES && "initiate" in HANDLED_STATUSES && "progress" in HANDLED_STATUSES;
    assert "done" in HANDLED_STATUSES && "ready" in HANDLED_STATUSES && "start" in HANDLED_STATUSES;
    assert "update" in HANDLED_STATUSES && "complete" in HANDLED_STATUSES;
  }

  /** How the browser answers `getUserMedia`. */
  datatype Media = NoMediaApi | Denied | Granted

  /** The body of the recorder set-up effect once its guard lets it through: a granted stream yields a recorder. */
  function CreateRecorder(app: AppState, media: Media): AppState {
    if media == Granted then app.(hasRecorder := true) else app
  }

  /**
    The recorder set-up effect as written: `if (!recorderRef.current) return;`.
    It runs once, on mount, when there is no recorder yet, so it always returns early.
   */
  function MountRecorderAsWritten(app: AppState, media: Media): (r: AppState)
    ensures !app.hasRecorder ==> r == app
  {
    if !app.hasRecorder then app else CreateRecorder(app, media)
  }

  /** The set-up effect with the guard its comment describes: return only if a recorder is already set. */
  function MountRecorder(app: AppState, media: Media): (r: AppState)
    ensures r.hasRecorder <==> app.hasRecorder || media == Granted
    ensures r == app.(hasRecorder := r.hasRecorder)
  {
    if app.hasRecorder then app else CreateRecorder(app, media)
  }

  /** `onstart`: recording begins with an empty chunk list. */
  function OnRecorderStart(app: AppState): (r: AppState)
    ensures r.recording && r.chunks == []
    ensures r == app.(recording := r.recording, chunks := r.chunks)
  {
    app.(recording := true, chunks := [])
  }

  /** `ondataavailable`: a non-empty blob is appended; for an empty one, data is requested again (after 25 ms). */
  function OnDataAvailable(app: AppState, blob: Chunk): (r: Reaction)
    ensures blob.size > 0 ==> r.state.chunks == app.chunks + [blob] && r.commands == []
    ensures r.state == app.(chunks := r.state.chunks)
    ensures blob.size == 0 ==> r.state == app && r.commands == [RequestData]
  {
    if blob.size > 0 then Reaction(app.(chunks := app.chunks + [blob]), [])
    else Reaction(app, [RequestData])
  }

  /** `onstop` */
  function OnRecorderStop(app: AppState): (r: AppState)
    ensures !r.recording
    ensures r == app.(recording := r.recording)
  {
    app.(recording := false)
  }

  /**
    The language selector: the recorder, if there is one, is stopped, the new
    language is stored, and the recorder is started again.
   */
  function SelectLanguage(app: AppState, language: string): (r: Reaction)
    ensures r.state == app.(language := language)
    ensures app.hasRecorder ==> r.commands == [StopRecording, StartRecording]
    ensures !app.hasRecorder ==> r.commands == []
  {
    Reaction(app.(language := language), if app.hasRecorder then [StopRecording, StartRecording] else [])
  }

  /** The Reset button: stop and restart the recorder, if there is one; the page state is untouched. */
  function ResetRecorder(app: AppState): (r: Reaction)
    ensures r.state == app
    ensures r.commands != [] <==> app.hasRecorder
    ensures app.hasRecorder ==> r.commands == [StopRecording, StartRecording]
  {
    Reaction(app, if app.hasRecorder then [StopRecording, StartRecording] else [])
  }

  /** `audio.length > MAX_SAMPLES ? audio.slice(-MAX_SAMPLES) : audio`: the last thirty seconds. */
  function AudioWindow<S>(audio: seq<S>): (r: seq<S>)
    ensures |r| == Min(|audio|, MAX_SAMPLES)
    ensures r == audio[|audio| - |r|..]
    ensures |audio| <= MAX_SAMPLES ==> r == audio
  {
    if |audio| > MAX_SAMPLES then
      JsArray.SliceSuffix(audio, MAX_SAMPLES);
      JsArray.Slice(audio, -MAX_SAMPLES, |audio|)
    else audio
  }

  /** Thirty seconds at 16 kHz. */
  lemma MaxSamplesIs480000()
    ensures MAX_SAMPLES == 480000
  {
  }

  /** What the transcription effect does. */
  datatype Effect<S> =
    | Idle                                          // guard closed, or decoding failed
    | AskForData                                    // `recorderRef.current?.requestData()`
    | PostGenerate(audio: seq<S>, language: string) // `postMessage({ type: 'generate', data: { audio, language } })`

  /**
    The transcription effect. `decoded` is what decoding all chunks would give
    (`None` when `decodeAudioData` rejects).
   */
  function TranscriptionStep<S>(app: AppState, decoded: Option<seq<S>>): (e: Effect<S>)
    ensures e.PostGenerate? <==>
              app.hasRecorder && app.recording && !app.isProcessing && app.status == Ready
              && |app.chunks| > 0 && decoded.Some?
    ensures e.AskForData? <==>
              app.hasRecorder && app.recording && !app.isProcessing && app.status == Ready && |app.chunks| == 0
    ensures e.PostGenerate? ==> e.audio == AudioWindow(decoded.value) && e.language == app.language
  {
    if !app.hasRecorder || !app.recording || app.isProcessing || app.status != Ready then Idle
    else if |app.chunks| > 0 then
      match decoded
      case Some(audio) => PostGenerate(AudioWindow(audio), app.language)
      case None => Idle
    else AskForData
  }

  /** "Load model": shown and enabled only while `status` is `null`; posts `{ type: 'load' }` and sets 'loading'. */
  function LoadClick(app: AppState): (r: (AppState, Option<Object>))
    ensures app.status == NoStatus ==> r.0 == app.(status := Loading) && r.1 == Some(map["type" := Str("load")])
    ensures app.status != NoStatus ==> r == (app, None)
  {
    if app.status == NoStatus then (app.(status := Loading), Some(map["type" := Str("load")])) else (app, None)
  }

  /** The ten-second interval: while ready, the transcript is copied for the message analyser. */
  function SnapshotTick(app: AppState): (r: AppState)
    ensures app.status == Ready ==> r.analyzedText == app.text
    ensures r == app.(analyzedText := r.analyzedText)
    ensures app.status != Ready ==> r == app
  {
    if app.status == Ready then app.(analyzedText := app.text) else app
  }

  /**
    `fetchAnalysis`: a truthy transcript is posted to `/api/analyze`; the displayed
    result is `data.result`, or 'No result' when that is falsy. `response` is the
    parsed reply (`None` when the request or the parse rejects).
   */
  function FetchAnalysis(app: AppState, response: Option<Object>): (r: (AppState, Option<Value>))
    ensures r.1.Some? <==> Truthy(app.text)
    ensures r.1.Some? ==> r.1.value == app.text
    ensures r.0 == app.(result := r.0.result)
    ensures Truthy(app.text) && response.Some? ==> Truthy(r.0.result)
    ensures Truthy(app.text) && response.Some? && Truthy(Get(response.value, "result")) ==>
              r.0.result == Get(response.value, "result")
    ensures Truthy(app.text) && response.Some? && !Truthy(Get(response.value, "result")) ==>
              r.0.result == Str(NO_RESULT)
    ensures !(Truthy(app.text) && response.Some?) ==> r.0 == app
  {
    if !Truthy(app.text) then (app, None)
    else match response
      case None => (app, Some(app.text))
      case Some(data) => (app.(result := Or(Get(data, "result"), Str(NO_RESULT))), Some(app.text))
  }

  /**
    The request depends only on the transcript, which the answer does not change:
    a second run of the effect with the same reply sends the same request and
    shows the same result.
   */
  lemma FetchAnalysisIdempotent(app: AppState, response: Option<Object>)
    ensures var (app', sent) := FetchAnalysis(app, response);
            FetchAnalysis(app', response) == (app', sent)
  {
  }

  /** The language chosen in the selector is the one the next transcription request carries. */
  lemma SelectedLanguageIsPosted<S>(app: AppState, language: string, decoded: seq<S>)
    requires TranscriptionStep(app, Some(decoded)).PostGenerate?
    ensures TranscriptionStep(SelectLanguage(app, language).state, Some(decoded)) == PostGenerate(AudioWindow(decoded), language)
  {
  }

  /**
    As written, the set-up effect never creates a recorder, so even with the model
    ready, recording granted and audio available, no transcription is ever requested.
   */
  lemma AsWrittenNeverTranscribes<S>(media: Media, chunk: Chunk, decoded: seq<S>)
    requires chunk.size > 0
    ensures var app := MountRecorderAsWritten(Initial, media);
            var ready := OnMessage(app, map["status" := Str("ready")]).state;
            var started := OnDataAvailable(OnRecorderStart(ready), chunk).state;
            !started.hasRecorder && TranscriptionStep(started, Some(decoded)) == Idle
  {
  }

  /**
    With the corrected guard and a granted microphone, the ready message starts the
    recorder, and the first chunk of audio leads to a transcription request for the
    last thirty seconds of it.
   */
  lemma CorrectedTranscribes<S>(chunk: Chunk, decoded: seq<S>)
    requires chunk.size > 0
    ensures var app := MountRecorder(Initial, Granted);
            var ready := OnMessage(app, map["status" := Str("ready")]);
            var started := OnDataAvailable(OnRecorderStart(ready.state), chunk).state;
            && ready.commands == [StartRecording]
            && TranscriptionStep(started, Some(decoded)) == PostGenerate(AudioWindow(decoded), DEFAULT_LANGUAGE)
  {
  }

  /** What `worker.current` refers to. */
  datatype WorkerRef = NoWorker | Alive | Terminated

  /** The body of the worker effect: a worker is created only while the ref is empty. */
  function ConnectWorker(ref: WorkerRef): (r: WorkerRef)
    ensures ref.NoWorker? ==> r.Alive?
    ensures !ref.NoWorker? ==> r == ref
  {
    if ref.NoWorker? then Alive else ref
  }

  /**
    The worker effect's cleanup as written. It runs before every re-run the
    `[status, text]` dependencies cause and terminates the worker, but it leaves
    the terminated worker in the ref.
   */
  function DisconnectWorkerAsWritten(ref: WorkerRef): (r: WorkerRef)
    ensures r.NoWorker? <==> ref.NoWorker?
    ensures !ref.NoWorker? ==> r.Terminated?
  {
    if ref.NoWorker? then NoWorker else Terminated
  }

  /** The ref after `n` re-runs of the worker effect as written. */
  function RerunsAsWritten(ref: WorkerRef, n: nat): WorkerRef
    decreases n
  {
    if n == 0 then ref else RerunsAsWritten(ConnectWorker(DisconnectWorkerAsWritten(ref)), n - 1)
  }

  /**
    The corrected cleanup: a re-run only swaps the message listener, and the worker
    is terminated, and the ref cleared, only when the page unmounts.
   */
  function DisconnectWorker(ref: WorkerRef, unmounting: bool): (r: WorkerRef)
    ensures unmounting ==> r.NoWorker?
    ensures !unmounting ==> r == ref
  {
    if unmounting then NoWorker else ref
  }

  /** The ref after `n` re-runs of the corrected worker effect. */
  function Reruns(ref: WorkerRef, n: nat): WorkerRef
    decreases n
  {
    if n == 0 then ref else Reruns(ConnectWorker(DisconnectWorker(ref, false)), n - 1)
  }

  /** The worker effect after a render: it re-runs exactly when `status` or `text` changed. */
  function AfterRenderAsWritten(before: AppState, after: AppState, ref: WorkerRef): (r: WorkerRef)
    ensures before.status == after.status && before.text == after.text ==> r == ref
    ensures before.status != after.status || before.text != after.text ==> r == RerunsAsWritten(ref, 1)
  {
    if before.status != after.status || before.text != after.text then RerunsAsWritten(ref, 1) else ref
  }

  /** The same with the corrected cleanup. */
  function AfterRender(before: AppState, after: AppState, ref: WorkerRef): (r: WorkerRef)
    ensures before.status == after.status && before.text == after.text ==> r == ref
    ensures before.status != after.status || before.text != after.text ==> r == Reruns(ref, 1)
  {
    if before.status != after.status || before.text != after.text then Reruns(ref, 1) else ref
  }

  /** Once terminated, the worker stays terminated: the effect never replaces it. */
  lemma {:induction false} TerminatedStaysTerminated(n: nat)
    ensures RerunsAsWritten(Terminated, n) == Terminated
    decreases n
  {
    if n > 0 {
      TerminatedStaysTerminated(n - 1);
    }
  }

  /**
    As written, the "Load model" click changes `status`, which re-runs the worker
    effect; its cleanup terminates the worker the load was just posted to, and no
    later re-run ever brings up a live worker again.
   */
  lemma {:induction false} AsWrittenLoadIsKilled(app: AppState, n: nat)
    requires app.status == NoStatus
    ensures var clicked := LoadClick(app).0;
            var afterClick := AfterRenderAsWritten(app, clicked, ConnectWorker(NoWorker));
            afterClick == Terminated && RerunsAsWritten(afterClick, n) == Terminated
  {
    TerminatedStaysTerminated(n);
  }

  /** With the corrected cleanup the worker created at mount survives every re-run. */
  lemma {:induction false} CorrectedWorkerSurvives(n: nat)
    ensures Reruns(ConnectWorker(NoWorker), n) == Alive
    decreases n
  {
    if n > 0 {
      CorrectedWorkerSurvives(n - 1);
    }
  }

  /** With the corrected cleanup the worker the load was posted to is still alive after the click's re-render. */
  lemma {:induction false} CorrectedLoadSurvivesClick(app: AppState, n: nat)
    requires app.status == NoStatus
    ensures var afterClick := AfterRender(app, LoadClick(app).0, ConnectWorker(NoWorker));
            afterClick == Alive && Reruns(afterClick, n) == Alive
  {
    CorrectedWorkerSurvives(1);
    CorrectedWorkerSurvives(n);
  }
}

=== FILE: base.dfy ===
/** Small shared vocabulary: optional values, success-or-error results and `Min`. */
module Base {

  /** A value that may be missing (JavaScript `null`/`undefined` where the source allows it). */
  datatype Option<+T> = None | Some(value: T)

  /** The outcome of an operation that can throw: `Err` carries what was thrown. */
  datatype Result<+T, +E> = Ok(value: T) | Err(error: E)

  function Min(a: int, b: int): int {
    if a <= b then a else b
  }
}

=== FILE: call_log.dfy ===
/**
  The call-log model of dbtest/model/Call.js: the schema's field declarations,
  `logCall` (read the two files, derive the `sus` flag, build and save a record),
  updates under the schema's `immutable` declarations, and `returnCall`. The
  collection is a sequence of records; file reads, the clock and `save` are oracles.
 */
module CallLog {
  import opened Base
  import opened JsValue

  const TRANSCRIPT_PATH := "./transcript.txt"
  const LLM_OUTPUT_PATH := "./llmoutput.txt"

  datatype FieldType = StringField | DateField | BooleanField | NumberField

  /** One entry of the schema definition. */
  datatype FieldSpec = FieldSpec(name: string, kind: FieldType, required: bool, immutable: bool, hasDefault: bool)

  /** `callSchema`, in declaration order. */
  const SCHEMA: seq<FieldSpec> := [
    FieldSpec("transcript", StringField, true, false, false),
    FieldSpec("llmoutput", StringField, true, false, false),
    FieldSpec("logdate", DateField, false, true, true),
    FieldSpec("sus", BooleanField, true, false, false),
    FieldSpec("userid", NumberField, true, false, false),
    FieldSpec("phonenumber", NumberField, true, true, false)
  ]

  function RequiredFields(): set<string> {
    set f | f in SCHEMA && f.required :: f.name
  }

  function ImmutableFields(): set<string> {
    set f | f in SCHEMA && f.immutable :: f.name
  }

  predicate IsImmutable(name: string) {
    exists f :: f in SCHEMA && f.immutable && f.name == name
  }

  /** The fields the schema declares required. */
  lemma RequiredFieldsDeclared()
    ensures RequiredFields() == {"transcript", "llmoutput", "sus", "userid", "phonenumber"}
  {
    assert SCHEMA[0] in SCHEMA && SCHEMA[1] in SCHEMA && SCHEMA[3] in SCHEMA;
    assert SCHEMA[4] in SCHEMA && SCHEMA[5] in SCHEMA;
  }

  /** The fields the schema declares immutable. */
  lemma ImmutableFieldsDeclared()
    ensures ImmutableFields() == {"logdate", "phonenumber"}
  {
    assert SCHEMA[2] in SCHEMA && SCHEMA[5] in SCHEMA;
  }

  /** `logdate` and `phonenumber` are declared immutable. */
  lemma ImmutableByName()
    ensures IsImmutable("logdate") && IsImmutable("phonenumber")
  {
    assert SCHEMA[2] in SCHEMA && SCHEMA[5] in SCHEMA;
  }

  /** No other field is. */
  lemma MutableByName()
    ensures !IsImmutable("transcript") && !IsImmutable("llmoutput") && !IsImmutable("sus") && !IsImmutable("userid")
  {
  }

  /** A stored call. `logdate` is a clock reading in milliseconds. */
  datatype CallRecord = CallRecord(
    transcript: string, llmoutput: string, logdate: int, sus: bool, userid: Value, phonenumber: Value)

  /** `sus` starts true and is cleared only when the model's output is exactly "". */
  function Suspicious(llmcontent: string): (sus: bool)
    ensures !sus <==> |llmcontent| == 0
  {
    llmcontent != ""
  }

  /** White space alone still counts as output: such a call is flagged. */
  lemma WhitespaceOutputIsSuspicious()
    ensures Suspicious(" ") && Suspicious("\n")
  {
  }

  datatype Error = ReadError(path: string) | SaveError

  /** What `logCall` resolves to, with the collection after it. */
  datatype Logged = Logged(collection: seq<CallRecord>, returned: bool)

  /**
    `logCall(currentUserId, phoneNumber)`. `transcriptFile` and `llmFile` are the
    file contents (`None` when `readFileSync` throws), `now` is `Date.now()` when
    the document is created, and `saveOk` says whether `save` resolves.
   */
  function LogCall(db: seq<CallRecord>, currentUserId: Value, phoneNumber: Value,
                   transcriptFile: Option<string>, llmFile: Option<string>,
                   now: int, saveOk: bool): (r: Result<Logged, Error>)
    ensures r.Ok? <==> transcriptFile.Some? && llmFile.Some? && saveOk
    ensures r.Ok? ==> r.value.returned
    ensures r.Ok? ==>
              && |r.value.collection| == |db| + 1
              && r.value.collection[..|db|] == db
              && var rec := r.value.collection[|db|];
                 && rec.transcript == transcriptFile.value && rec.llmoutput == llmFile.value
                 && rec.userid == currentUserId && rec.phonenumber == phoneNumber
                 && rec.logdate == now
                 && (rec.sus <==> llmFile.value != "")
    ensures transcriptFile.None? ==> r == Err(ReadError(TRANSCRIPT_PATH))
    ensures transcriptFile.Some? && llmFile.None? ==> r == Err(ReadError(LLM_OUTPUT_PATH))
  {
    match transcriptFile
    case None => Err(ReadError(TRANSCRIPT_PATH))
    case Some(transcontent) =>
      match llmFile
      case None => Err(ReadError(LLM_OUTPUT_PATH))
      case Some(llmcontent) =>
        var article := CallRecord(transcontent, llmcontent, now, Suspicious(llmcontent), currentUserId, phoneNumber);
        if saveOk then Ok(Logged(db + [article], true)) else Err(SaveError)
  }

  /** A change to some fields of a stored call; `None` leaves a field as it is. */
  datatype Patch = Patch(
    transcript: Option<string>, llmoutput: Option<string>, logdate: Option<int>, sus: Option<bool>,
    userid: Option<Value>, phonenumber: Option<Value>)

  /** One field under an update: an immutable field keeps its value, any other takes the patch's, if given. */
  function PatchField<T>(name: string, current: T, patch: Option<T>): T {
    if IsImmutable(name) then current
    else match patch
      case Some(v) => v
      case None => current
  }

  /** Applying an update to a stored call, field by field under the schema. */
  function ApplyPatch(rec: CallRecord, p: Patch): (r: CallRecord)
    ensures r.logdate == rec.logdate && r.phonenumber == rec.phonenumber
    ensures p.transcript.Some? ==> r.transcript == p.transcript.value
    ensures p.llmoutput.Some? ==> r.llmoutput == p.llmoutput.value
    ensures p.sus.Some? ==> r.sus == p.sus.value
    ensures p.userid.Some? ==> r.userid == p.userid.value
    ensures p.transcript.None? ==> r.transcript == rec.transcript
    ensures p.llmoutput.None? ==> r.llmoutput == rec.llmoutput
    ensures p.sus.None? ==> r.sus == rec.sus
    ensures p.userid.None? ==> r.userid == rec.userid
  {
    ImmutableByName();
    MutableByName();
    CallRecord(
      PatchField("transcript", rec.transcript, p.transcript),
      PatchField("llmoutput", rec.llmoutput, p.llmoutput),
      PatchField("logdate", rec.logdate, p.logdate),
      PatchField("sus", rec.sus, p.sus),
      PatchField("userid", rec.userid, p.userid),
      PatchField("phonenumber", rec.phonenumber, p.phonenumber))
  }

  /** `returnCall(currentUserId)`: `Call.find({})`, the whole collection whatever the user. */
  function ReturnCall(db: seq<CallRecord>, currentUserId: Value): (r: seq<CallRecord>)
    ensures |r| == |db| && forall i :: 0 <= i < |r| ==> r[i] == db[i]
  {
    db
  }

  /** A call logged for one user is returned to any user, after every earlier call. */
  lemma LoggedCallIsReturnedToEveryone(db: seq<CallRecord>, userId: Value, phone: Value,
                                       transcript: string, llm: string, now: int, anyUser: Value)
    ensures var r := LogCall(db, userId, phone, Some(transcript), Some(llm), now, true);
            && r.Ok?
            && var all := ReturnCall(r.value.collection, anyUser);
               && all[..|db|] == db
               && all[|db|] == CallRecord(transcript, llm, now, llm != "", userId, phone)
  {
  }
}

=== FILE: js_array.dfy ===
/** `Array.prototype.slice` and `TypedArray.prototype.slice`, with their handling of negative and out-of-range indices. */
module JsArray {

  /**
    How `slice` resolves an index argument against a length: a negative index
    counts from the end, and the result is clamped to `0..len`.
   */
  function RelativeIndex(k: int, len: nat): (r: nat)
    ensures r <= len
    ensures 0 <= k <= len ==> r == k
    ensures -(len as int) <= k < 0 ==> r == len + k
    ensures k < -(len as int) ==> r == 0
    ensures k > len ==> r == len
  {
    if k < 0 then (if len + k < 0 then 0 else len + k)
    else if k > len then len
    else k
  }

  /** `a.slice(start, end)`; a missing `end` is written as `|a|`. */
  function Slice<T>(a: seq<T>, start: int, end: int): (r: seq<T>)
    ensures RelativeIndex(start, |a|) + |r| <= |a|
    ensures |r| == if RelativeIndex(start, |a|) < RelativeIndex(end, |a|) then RelativeIndex(end, |a|) - RelativeIndex(start, |a|) else 0
    ensures forall i :: 0 <= i < |r| ==> r[i] == a[RelativeIndex(start, |a|) + i]
  {
    var from := RelativeIndex(start, |a|);
    var to := RelativeIndex(end, |a|);
    if from < to then a[from..to] else []
  }

  /** `a.slice(0, n)` is the first `min(n, |a|)` elements. */
  lemma SlicePrefix<T>(a: seq<T>, n: nat)
    ensures Slice(a, 0, n) == if n <= |a| then a[..n] else a
  {
  }

  /** `a.slice(-n)` for `n > 0` is the last `min(n, |a|)` elements. */
  lemma SliceSuffix<T>(a: seq<T>, n: nat)
    requires n > 0
    ensures Slice(a, -(n as int), |a|) == if n <= |a| then a[|a| - n..] else a
  {
  }
}

=== FILE: js_string.dfy ===
/**
  The string built-ins the application calls: `trim()`, `toLowerCase()` and `includes()`.
 */
module JsString {

  /**
    The characters `String.prototype.trim` strips: the ECMAScript WhiteSpace set
    (tab, vertical tab, form feed, space, no-break space, byte-order mark and the
    Unicode space separators) and the LineTerminator set (LF, CR, U+2028, U+2029).
   */
  predicate IsSpace(c: char) {
    || c == '\U{9}' || c == '\U{B}' || c == '\U{C}' || c == ' '
    || c == '\U{A0}' || c == '\U{FEFF}'
    || c == '\U{1680}' || ('\U{2000}' <= c <= '\U{200A}') || c == '\U{202F}' || c == '\U{205F}' || c == '\U{3000}'
    || c == '\U{A}' || c == '\U{D}' || c == '\U{2028}' || c == '\U{2029}'
  }

  predicate AllSpace(s: string) {
    forall i :: 0 <= i < |s| ==> IsSpace(s[i])
  }

  /** The first index at or after `i` that does not hold white space, or `|s|`. */
  function SpanStart(s: string, i: nat): (a: nat)
    requires i <= |s|
    ensures i <= a <= |s|
    ensures forall x :: i <= x < a ==> IsSpace(s[x])
    ensures a < |s| ==> !IsSpace(s[a])
    decreases |s| - i
  {
    if i < |s| && IsSpace(s[i]) then SpanStart(s, i + 1) else i
  }

  /** Scanning down from `j`, the end of `s[lo..j]` once its trailing white space is dropped. */
  function SpanEnd(s: string, lo: nat, j: nat): (b: nat)
    requires lo <= j <= |s|
    ensures lo <= b <= j
    ensures forall x :: b <= x < j ==> IsSpace(s[x])
    ensures b > lo ==> !IsSpace(s[b - 1])
    decreases j
  {
    if j > lo && IsSpace(s[j - 1]) then SpanEnd(s, lo, j - 1) else j
  }

  /** Where `s.trim()` starts inside `s`: the length of the leading white space. */
  function TrimOffset(s: string): (k: nat)
    ensures k <= |s|
  {
    SpanStart(s, 0)
  }

  /** `s.trim()`: the part of `s` between its leading and its trailing white space. */
  function Trim(s: string): (r: string)
    ensures TrimOffset(s) + |r| <= |s| && r == s[TrimOffset(s)..TrimOffset(s) + |r|]
    ensures forall x :: 0 <= x < |s| && !IsSpace(s[x]) ==> TrimOffset(s) <= x < TrimOffset(s) + |r|
    ensures r == [] || (!IsSpace(r[0]) && !IsSpace(r[|r| - 1]))
  {
    var a := SpanStart(s, 0);
    var b := SpanEnd(s, a, |s|);
    assert a < |s| ==> b > a;
    s[a..b]
  }

  /** `c.toLowerCase()` for one character; only the ASCII letters A-Z change. */
  function LowerChar(c: char): char {
    if 'A' <= c <= 'Z' then (c as int + 32) as char else c
  }

  /** `s.toLowerCase()`, restricted to ASCII case mapping. */
  function LowerAscii(s: string): (r: string)
    ensures |r| == |s|
    ensures forall i {:trigger r[i]} :: 0 <= i < |s| ==> r[i] == LowerChar(s[i])
  {
    seq(|s|, i requires 0 <= i < |s| => LowerChar(s[i]))
  }

  /** `p` occurs in `s` starting at index `i`. */
  predicate OccursAt(s: string, p: string, i: int) {
    0 <= i && i + |p| <= |s| && s[i..i + |p|] == p
  }

  /** `s.includes(p)`, scanning from the left. */
  function Includes(s: string, p: string): bool
    decreases |s|
  {
    if |s| < |p| then false
    else if s[..|p|] == p then true
    else Includes(s[1..], p)
  }

  /** The scan finds `p` exactly when `p` occurs somewhere in `s`. */
  lemma {:induction false} IncludesIffOccurs(s: string, p: string)
    ensures Includes(s, p) <==> exists i :: OccursAt(s, p, i)
    decreases |s|
  {
    if |s| < |p| {
    } else if s[..|p|] == p {
      assert OccursAt(s, p, 0);
    } else {
      IncludesIffOccurs(s[1..], p);
      if exists i :: OccursAt(s[1..], p, i) {
        var i :| OccursAt(s[1..], p, i);
        assert s[1..][i..i + |p|] == s[i + 1..i + 1 + |p|];
        assert OccursAt(s, p, i + 1);
      }
      if exists i :: OccursAt(s, p, i) {
        var i :| OccursAt(s, p, i);
        assert i != 0;
        assert s[1..][i - 1..i - 1 + |p|] == s[i..i + |p|];
        assert OccursAt(s[1..], p, i - 1);
      }
    }
  }

  /** `trim()` yields "" exactly for strings made of white space only. */
  lemma TrimEmptyIffAllSpace(s: string)
    ensures Trim(s) == "" <==> AllSpace(s)
  {
  }

  /** Lower-casing never turns white space into a letter or back. */
  lemma LowerKeepsSpace(c: char)
    ensures IsSpace(LowerChar(c)) <==> IsSpace(c)
  {
  }

  /** Lower-casing commutes with taking a slice. */
  lemma LowerSlice(s: string, a: nat, b: nat)
    requires a <= b <= |s|
    ensures LowerAscii(s)[a..b] == LowerAscii(s[a..b])
  {
  }

  /** A character of an occurrence in the lower-cased text that is not white space comes from one that is not. */
  lemma NonSpaceAt(s: string, p: string, j: int, x: nat)
    requires OccursAt(LowerAscii(s), p, j) && x < |p| && !IsSpace(p[x])
    ensures !IsSpace(s[j + x])
  {
    assert LowerAscii(s)[j..j + |p|][x] == p[x];
    LowerKeepsSpace(s[j + x]);
  }

  /** A slice of a slice is a slice of the original. */
  lemma SliceOfSlice(s: string, a: nat, b: nat, c: nat, d: nat)
    requires a <= b <= |s| && c <= d <= b - a
    ensures s[a..b][c..d] == s[a + c..a + d]
  {
    forall x | 0 <= x < d - c ensures s[a..b][c..d][x] == s[a + c..a + d][x] {
      assert s[a..b][c..d][x] == s[a..b][c + x] == s[a + c + x];
    }
  }

  /** An occurrence in the lower-cased trimmed text is an occurrence in the lower-cased text. */
  lemma OccursFromTrim(s: string, p: string, i: int)
    requires OccursAt(LowerAscii(Trim(s)), p, i)
    ensures OccursAt(LowerAscii(s), p, i + TrimOffset(s))
  {
    var t, k := Trim(s), TrimOffset(s);
    var e := i + |p|;
    var window := t[i..e];
    assert window == s[i + k..e + k] by {
      SliceOfSlice(s, k, k + |t|, i, e);
    }
    calc {
      LowerAscii(s)[i + k..e + k];
      { LowerSlice(s, i + k, e + k); }
      LowerAscii(window);
      { LowerSlice(t, i, e); }
      LowerAscii(t)[i..e];
    }
  }

  /**
    An occurrence in the lower-cased text of a pattern that starts and ends with
    a non-space character lies inside the trimmed window.
   */
  lemma OccursInsideTrim(s: string, p: string, j: int)
    requires |p| > 0 && !IsSpace(p[0]) && !IsSpace(p[|p| - 1])
    requires OccursAt(LowerAscii(s), p, j)
    ensures TrimOffset(s) <= j && j + |p| <= TrimOffset(s) + |Trim(s)|
  {
    NonSpaceAt(s, p, j, 0);
    NonSpaceAt(s, p, j, |p| - 1);
  }

  /** Such an occurrence is therefore also one in the lower-cased trimmed text. */
  lemma OccursInTrim(s: string, p: string, j: int)
    requires |p| > 0 && !IsSpace(p[0]) && !IsSpace(p[|p| - 1])
    requires OccursAt(LowerAscii(s), p, j)
    ensures OccursAt(LowerAscii(Trim(s)), p, j - TrimOffset(s))
  {
    var t, k := Trim(s), TrimOffset(s);
    var e := j + |p|;
    OccursInsideTrim(s, p, j);
    var window := t[j - k..e - k];
    assert window == s[j..e] by {
      SliceOfSlice(s, k, k + |t|, j - k, e - k);
    }
    calc {
      LowerAscii(t)[j - k..e - k];
      { LowerSlice(t, j - k, e - k); }
      LowerAscii(window);
      { LowerSlice(s, j, e); }
      LowerAscii(s)[j..e];
    }
  }
}

=== FILE: js_value.dfy ===
/**
  The slice of JavaScript's value semantics the application relies on: truthiness
  (`if (x)`, `x || y`), property reads on plain objects, and `String(x)`.
 */
module JsValue {

  /** A JavaScript value. Numbers are integers here; `Obj` is an object known only by its identity. */
  datatype Value =
    | Undefined
    | Null
    | Bool(b: bool)
    | Num(n: int)
    | Str(s: string)
    | Arr(items: seq<Value>)
    | Obj(ref: nat)

  /** A plain object literal such as a worker message; a missing key reads as `undefined`. */
  type Object = map<string, Value>

  /** `!!v`: `undefined`, `null`, `false`, `0` and `""` are falsy; every array and object is truthy. */
  predicate Truthy(v: Value) {
    match v
    case Undefined => false
    case Null => false
    case Bool(b) => b
    case Num(n) => n != 0
    case Str(s) => s != ""
    case Arr(_) => true
    case Obj(_) => true
  }

  /** `a || b` */
  function Or(a: Value, b: Value): Value {
    if Truthy(a) then a else b
  }

  /** `o[key]` for a plain object. */
  function Get(o: Object, key: string): Value {
    if key in o then o[key] else Undefined
  }

  function DigitChar(d: nat): char
    requires d < 10
  {
    "0123456789"[d]
  }

  function NatToString(n: nat): string
    decreases n
  {
    if n < 10 then [DigitChar(n)] else NatToString(n / 10) + [DigitChar(n % 10)]
  }

  /** `a.join(sep)` on strings that are already converted. */
  function Join(parts: seq<string>, sep: string): string
  {
    if |parts| == 0 then ""
    else if |parts| == 1 then parts[0]
    else Join(parts[..|parts| - 1], sep) + sep + parts[|parts| - 1]
  }

  /** `String(v)`. Arrays convert through `join(",")`, in which `null` and `undefined` elements become "". */
  function ToString(v: Value): string
    decreases v
  {
    match v
    case Undefined => "undefined"
    case Null => "null"
    case Bool(b) => if b then "true" else "false"
    case Num(n) => if n < 0 then "-" + NatToString(-n) else NatToString(n)
    case Str(s) => s
    case Arr(items) =>
      Join(seq(|items|, i requires 0 <= i < |items| =>
                 if items[i].Undefined? || items[i].Null? then "" else ToString(items[i])), ",")
    case Obj(_) => "[object Object]"
  }

  /**
    `String(v || '')`, the normalisation the application applies before looking at text:
    a falsy value becomes the empty string and a string is kept as it is.
   */
  function Coerce(v: Value): (r: string)
    ensures !Truthy(v) ==> r == ""
    ensures v.Str? ==> r == v.s
    ensures r != "" ==> Truthy(v)
  {
    ToString(Or(v, Str("")))
  }
}

=== FILE: openai_service.dfy ===
/**
  The chat-completion wrapper in src/services/openaiService.js: input normalisation,
  lazy once-only client construction, the shape of the returned analysis, and the
  module-level text buffer. The HTTP call itself is an oracle: `ApiOutcome` is what
  the endpoint would answer if asked.
 */
module OpenAIService {
  import opened Base
  import opened JsValue
  import opened JsString

  const CHAT_MODEL := "gpt-4o-mini"
  const MAX_TOKENS := 4095

  /** What a failing call throws. */
  datatype Error =
    | ApiError(detail: string)   // raised by the client library or the endpoint
    | TypeError(detail: string)  // raised by JavaScript itself, e.g. reading `choices[0].message` of an empty list

  /** One entry of `response.choices`; the message content may be `null`. */
  datatype Choice = Choice(content: Option<string>)

  /** The endpoint's answer to a request, decided outside the program. */
  datatype ApiOutcome = Completion(choices: seq<Choice>) | ApiFailure(error: Error)

  /** The user-visible part of the chat-completion request (the system prompt is a fixed constant). */
  datatype ChatRequest = ChatRequest(model: string, userContent: string, maxTokens: nat)

  /** The object `analyzeText` resolves to. */
  datatype Analysis = Analysis(analysis: Option<string>, analyzedText: string)

  /** How a call to `analyzeText` ends: `null`, a result object, or a rethrown error. */
  datatype Outcome = NoText | Analysed(result: Analysis) | Threw(error: Error)

  /**
    Module-level state: how many times `new OpenAI(...)` has run (the source keeps
    the client in a nullable variable, so "client exists" is `clientsBuilt > 0`)
    and the text buffer.
   */
  datatype Service = Service(clientsBuilt: nat, buffer: string)

  const Fresh := Service(0, "")

  /** The result of one `analyzeText` call: the new module state, the request sent (if any) and the outcome. */
  datatype Call = Call(service: Service, request: Option<ChatRequest>, outcome: Outcome)

  /** `initializeOpenAI()`: build the client only when there is none yet. */
  function InitializeClient(svc: Service): (r: Service)
    ensures r.clientsBuilt > 0
    ensures svc.clientsBuilt > 0 ==> r == svc
    ensures r.clientsBuilt <= svc.clientsBuilt + 1 && r.buffer == svc.buffer
  {
    if svc.clientsBuilt == 0 then svc.(clientsBuilt := 1) else svc
  }

  /** `String(text || '').trim()`, the text that is actually analysed. */
  function Normalise(text: Value): string {
    Trim(Coerce(text))
  }

  /** `analyzeText(text)` against an endpoint that would answer `api`. */
  function AnalyzeText(svc: Service, text: Value, api: ApiOutcome): (c: Call)
    // Blank input: `null`, no client construction, no request.
    ensures Normalise(text) == "" <==> c.request.None?
    ensures Normalise(text) == "" ==> c.outcome == NoText && c.service == svc
    // Otherwise the user message is the trimmed text and a client exists afterwards.
    ensures c.request.Some? ==> c.request.value == ChatRequest(CHAT_MODEL, Normalise(text), MAX_TOKENS)
    ensures c.request.Some? ==> c.service.clientsBuilt > 0 && c.outcome != NoText
    // The client is built at most once and the buffer is not touched.
    ensures svc.clientsBuilt > 0 ==> c.service == svc
    ensures c.service.clientsBuilt <= svc.clientsBuilt + 1 && c.service.buffer == svc.buffer
    // A result echoes the trimmed input and the first choice's content, unmodified.
    ensures c.outcome.Analysed? <==> c.request.Some? && api.Completion? && |api.choices| > 0
    ensures c.outcome.Analysed? ==>
              c.outcome.result == Analysis(api.choices[0].content, Normalise(text))
    // Endpoint errors are rethrown as they are.
    ensures c.request.Some? && api.ApiFailure? ==> c.outcome == Threw(api.error)
    // An empty `choices` array makes `choices[0].message` a TypeError.
    ensures c.request.Some? && api.Completion? && |api.choices| == 0 ==> c.outcome.Threw? && c.outcome.error.TypeError?
  {
    var textToAnalyze := Normalise(text);
    if textToAnalyze == "" then Call(svc, None, NoText)
    else
      var svc' := InitializeClient(svc);
      var request := ChatRequest(CHAT_MODEL, textToAnalyze, MAX_TOKENS);
      match api
      case ApiFailure(e) => Call(svc', Some(request), Threw(e))
      case Completion(choices) =>
        if |choices| == 0 then
          Call(svc', Some(request), Threw(TypeError("choices[0] is undefined")))
        else
          Call(svc', Some(request), Analysed(Analysis(choices[0].content, textToAnalyze)))
  }

  /** The service state after a sequence of `analyzeText` calls. */
  function RunAnalyses(svc: Service, calls: seq<(Value, ApiOutcome)>): Service
    decreases |calls|
  {
    if |calls| == 0 then svc
    else RunAnalyses(AnalyzeText(svc, calls[0].0, calls[0].1).service, calls[1..])
  }

  /** However many calls are made, the client is constructed at most once. */
  lemma {:induction false} ClientBuiltAtMostOnce(svc: Service, calls: seq<(Value, ApiOutcome)>)
    requires svc.clientsBuilt <= 1
    ensures RunAnalyses(svc, calls).clientsBuilt <= 1
    ensures svc.clientsBuilt == 1 ==> RunAnalyses(svc, calls).clientsBuilt == 1
    decreases |calls|
  {
    if |calls| > 0 {
      ClientBuiltAtMostOnce(AnalyzeText(svc, calls[0].0, calls[0].1).service, calls[1..]);
    }
  }

  /** `updateTextBuffer(newText)` */
  function UpdateTextBuffer(svc: Service, newText: Value): (r: Service)
    ensures r.clientsBuilt == svc.clientsBuilt
  {
    svc.(buffer := Coerce(newText))
  }

  /** `getTextBuffer()` */
  function GetTextBuffer(svc: Service): string {
    svc.buffer
  }

  /**
    Reading the buffer back gives `String(x || '')`: the string itself for a
    string, "" for a falsy value; and of two writes the last one wins.
   */
  lemma TextBufferRoundTrip(svc: Service, x: Value, y: Value)
    ensures x.Str? ==> GetTextBuffer(UpdateTextBuffer(svc, x)) == x.s
    ensures !Truthy(x) ==> GetTextBuffer(UpdateTextBuffer(svc, x)) == ""
    ensures UpdateTextBuffer(UpdateTextBuffer(svc, x), y) == UpdateTextBuffer(svc, y)
  {
  }
}

=== FILE: protocol.dfy ===
/**
  The message protocol between the page (src/App.jsx) and the worker
  (src/worker.js), checked against each other: what the worker posts is fed to
  the page's handler, and what the page posts is fed to the worker's listener.
 */
module Protocol {
  import opened Base
  import opened JsValue
  import Worker
  import App

  /** The statuses the worker can post. */
  const WORKER_STATUSES: set<string> := {"loading", "ready", "error", "start", "update", "complete"}

  /** Every posted message carries one of the six worker statuses. */
  lemma WorkerPostsKnownStatus(p: Worker.Post)
    ensures Get(Worker.ToObject(p), "status") == Str(Worker.StatusOf(p))
    ensures Worker.StatusOf(p) in WORKER_STATUSES
  {
  }

  /**
    The library's download progress reaches the page wrapped as 'loading', so
    the page's 'initiate', 'progress' and 'done' cases are never fed by this
    worker: its progress list never changes.
   */
  lemma WorkerNeverTouchesProgressItems(app: App.AppState, p: Worker.Post)
    ensures App.OnMessage(app, Worker.ToObject(p)).state.progressItems == app.progressItems
  {
  }

  /** The worker's 'error' has no case in the page's handler and changes nothing. */
  lemma WorkerErrorIsIgnored(app: App.AppState, data: Value)
    ensures App.OnMessage(app, Worker.ToObject(Worker.Failed(data))) == App.Reaction(app, [])
  {
  }

  /** The page's state after it has handled `posts` in order. */
  function Deliver(app: App.AppState, posts: seq<Worker.Post>): App.AppState
    decreases |posts|
  {
    if |posts| == 0 then app
    else Deliver(App.OnMessage(app, Worker.ToObject(posts[0])).state, posts[1..])
  }

  lemma {:induction false} DeliverAppend(app: App.AppState, a: seq<Worker.Post>, b: seq<Worker.Post>)
    ensures Deliver(app, a + b) == Deliver(Deliver(app, a), b)
    decreases |a|
  {
    if |a| > 0 {
      assert (a + b)[1..] == a[1..] + b;
      DeliverAppend(App.OnMessage(app, Worker.ToObject(a[0])).state, a[1..], b);
    } else {
      assert a + b == b;
    }
  }

  /** Partial transcriptions only change the displayed rate. */
  lemma {:induction false} UpdatesOnlyChangeRate(app: App.AppState, posts: seq<Worker.Post>)
    requires forall i :: 0 <= i < |posts| ==> posts[i].Update?
    ensures Deliver(app, posts) == app.(tps := Deliver(app, posts).tps)
    decreases |posts|
  {
    if |posts| > 0 {
      var app' := App.OnMessage(app, Worker.ToObject(posts[0])).state;
      assert app' == app.(tps := app'.tps);
      UpdatesOnlyChangeRate(app', posts[1..]);
    }
  }

  /** Handling a single post. */
  lemma DeliverOne(app: App.AppState, p: Worker.Post)
    ensures Deliver(app, [p]) == App.OnMessage(app, Worker.ToObject(p)).state
  {
    assert [p][1..] == [];
  }

  /** The page's handling of 'start'. */
  lemma StartOnPage(app: App.AppState)
    ensures App.OnMessage(app, Worker.ToObject(Worker.Start)).state == app.(isProcessing := true)
  {
    assert Get(Worker.ToObject(Worker.Start), "status") == Str("start");
  }

  /** The page's handling of 'complete'. */
  lemma CompleteOnPage(app: App.AppState, output: Value)
    ensures App.OnMessage(app, Worker.ToObject(Worker.Complete(output))).state
            == app.(isProcessing := false, text := output)
  {
    var m := Worker.ToObject(Worker.Complete(output));
    assert Get(m, "status") == Str("complete") && Get(m, "output") == output;
  }

  /** 'start' followed by partial transcriptions leaves the page processing, with everything else but the rate as it was. */
  lemma StartThenUpdates(app: App.AppState, updates: seq<Worker.Post>)
    requires forall i :: 0 <= i < |updates| ==> updates[i].Update?
    ensures var d := Deliver(app, [Worker.Start] + updates);
            d == app.(isProcessing := true, tps := d.tps)
  {
    DeliverOne(app, Worker.Start);
    StartOnPage(app);
    DeliverAppend(app, [Worker.Start], updates);
    UpdatesOnlyChangeRate(app.(isProcessing := true), updates);
  }

  /**
    After the page has handled everything an accepted `generate` posted, its
    `isProcessing` equals the worker's `processing`; when the transcription
    completed, the page shows its output. A failed transcription therefore leaves
    the page waiting for ever.
   */
  lemma GenerateKeepsPageInStep(app: App.AppState, w: Worker.WorkerState, o: Worker.GenerateOracle)
    requires !w.processing
    ensures var r := Worker.Generate(w, o);
            var d := Deliver(app, r.posts);
            && (d.isProcessing <==> r.state.processing)
            && (!r.state.processing ==> d.text == r.posts[|r.posts| - 1].output)
            && d.status == app.status && d.progressItems == app.progressItems
  {
    var inst := Worker.GetInstance(w.(processing := true), o.fetch);
    var updates := Worker.Stream(o.tokens, 0);
    if !inst.ok {
      StartThenUpdates(app, []);
      assert [Worker.Start] + [] == [Worker.Start];
    } else if o.result.None? {
      StartThenUpdates(app, updates);
    } else {
      var output := o.result.value;
      var head := [Worker.Start] + updates;
      StartThenUpdates(app, updates);
      DeliverAppend(app, head, [Worker.Complete(output)]);
      DeliverOne(Deliver(app, head), Worker.Complete(output));
      CompleteOnPage(Deliver(app, head), output);
    }
  }

  /**
    After the page has handled everything a `load` posted, it shows 'ready'
    exactly when the load succeeded; after a failure it stays on 'loading'.
   */
  lemma LoadOutcomeReachesPage(app: App.AppState, w: Worker.WorkerState, o: Worker.LoadOracle)
    ensures var r := Worker.Load(w, o);
            var d := Deliver(app, r.posts);
            && (d.status == App.Ready <==> r.posts[|r.posts| - 1].Ready?)
            && (r.posts[|r.posts| - 1].Failed? ==> d.status == App.Loading)
            && d.progressItems == app.progressItems
  {
    var r := Worker.Load(w, o);
    var n := |r.posts|;
    var init, last := r.posts[..n - 1], r.posts[n - 1];
    assert last.Ready? || last.Failed?;
    assert forall i :: 0 <= i < |init| ==> init[i].Loading?;
    assert r.posts == init + [last];
    DeliverAppend(app, init, [last]);
    AllLoadingGivesLoading(app, init);
    LoadEndOnPage(Deliver(app, init), last);
  }

  /** The message a `load` ends with: 'ready' shows the page ready, 'error' leaves its status alone. */
  lemma LoadEndOnPage(app: App.AppState, p: Worker.Post)
    requires p.Ready? || p.Failed?
    ensures p.Ready? ==> Deliver(app, [p]).status == App.Ready
    ensures p.Failed? ==> Deliver(app, [p]).status == app.status
    ensures Deliver(app, [p]).progressItems == app.progressItems
  {
    DeliverOne(app, p);
  }

  /** A non-empty run of 'loading' messages leaves the page on 'loading' with its progress list untouched. */
  lemma {:induction false} AllLoadingGivesLoading(app: App.AppState, posts: seq<Worker.Post>)
    requires |posts| > 0
    requires forall i :: 0 <= i < |posts| ==> posts[i].Loading?
    ensures Deliver(app, posts).status == App.Loading
    ensures Deliver(app, posts).progressItems == app.progressItems
    decreases |posts|
  {
    var app' := App.OnMessage(app, Worker.ToObject(posts[0])).state;
    if |posts| > 1 {
      AllLoadingGivesLoading(app', posts[1..]);
    }
  }

  /** The message the "Load model" button posts makes the worker load. */
  lemma LoadButtonReachesWorker(app: App.AppState, w: Worker.WorkerState, o: Worker.Oracles)
    requires app.status == App.NoStatus
    ensures Worker.OnMessage(w, App.LoadClick(app).1.value, o) == Worker.Load(w, o.load)
  {
  }

  /** `{ type: 'generate', data: { audio, language } }`; `data` is a fresh object. */
  function GenerateMessage(data: nat): Object {
    map["type" := Str("generate"), "data" := Obj(data)]
  }

  /** The page's transcription request reaches `generate`: its `data` is an object, so destructuring succeeds. */
  lemma TranscriptionRequestReachesGenerate(w: Worker.WorkerState, data: nat, o: Worker.Oracles)
    ensures Worker.OnMessage(w, GenerateMessage(data), o) == Worker.Generate(w, o.generate)
  {
  }
}

=== FILE: text_analyzer.dfy ===
/**
  The alert pipeline of src/components/TextAnalyzer.jsx. Every three seconds a tick
  looks at the current transcript; when it is new and no analysis is in flight, the
  text is sent to `analyzeText` and a reply that is a real alert is put at the head
  of a history of at most ten alerts.

  A tick is modelled in two steps: `Begin` (the gate, which also raises
  `isAnalyzing`) and `Finish` (the awaited call and the bookkeeping that follows it,
  ending in the `finally` that lowers `isAnalyzing`). `Tick` runs both.
 */
module TextAnalyzer {
  import opened Base
  import opened JsValue
  import opened JsString
  import JsArray
  import OpenAIService

  const HISTORY_LIMIT := 10
  const NO_RESPONSE := "no response"

  /** One displayed alert: `{ timestamp, ...result }`. */
  datatype Alert = Alert(timestamp: string, analysis: Option<string>, analyzedText: string)

  /** The component's state: the alert history, the in-flight flag and the last text sent. */
  datatype State = State(results: seq<Alert>, isAnalyzing: bool, lastAnalyzedText: string)

  const Initial := State([], false, "")

  /**
    `isEmptyResponse(analysis)`: a reply counts as "no alert" when it is missing,
    blank, contains "no response" in any letter case, or is a lone "[".
   */
  predicate IsEmptyResponse(analysis: Option<string>): (empty: bool)
    ensures analysis.None? ==> empty
    ensures analysis.Some? ==>
              (empty <==> || Trim(analysis.value) == "" || Trim(analysis.value) == "["
                          || Includes(LowerAscii(Trim(analysis.value)), NO_RESPONSE))
  {
    if analysis.None? || analysis.value == "" then true
    else
      var trimmed := Trim(analysis.value);
      if trimmed == "" then true
      else if Includes(LowerAscii(trimmed), NO_RESPONSE) then true
      else trimmed == "["
  }

  /** `s` is a lone "[" surrounded by white space only. */
  ghost predicate IsLoneBracket(s: string) {
    exists k :: 0 <= k < |s| && s[k] == '[' && forall x :: 0 <= x < |s| && x != k ==> IsSpace(s[x])
  }

  /**
    An independent statement of what the filter lets through: the reply has some
    character that is not white space, nowhere contains "no response" in any
    letter case, and is not a lone "[".
   */
  ghost predicate IsAlertText(s: string) {
    && !AllSpace(s)
    && !(exists i :: OccursAt(LowerAscii(s), NO_RESPONSE, i))
    && !IsLoneBracket(s)
  }

  /** "no response" found in the lower-cased trimmed text is the same as found in the lower-cased whole text. */
  lemma NoResponseIgnoresPadding(s: string)
    ensures Includes(LowerAscii(Trim(s)), NO_RESPONSE) <==> exists i :: OccursAt(LowerAscii(s), NO_RESPONSE, i)
  {
    var p := NO_RESPONSE;
    assert p[0] == 'n' && p[|p| - 1] == 'e';
    IncludesIffOccurs(LowerAscii(Trim(s)), p);
    if i :| OccursAt(LowerAscii(Trim(s)), p, i) {
      OccursFromTrim(s, p, i);
    }
    if j :| OccursAt(LowerAscii(s), p, j) {
      OccursInTrim(s, p, j);
    }
  }

  /** The trimmed text is exactly "[" when the text is a lone bracket between white space. */
  lemma LoneBracketIffTrimmed(s: string)
    ensures Trim(s) == "[" <==> IsLoneBracket(s)
  {
    var t, k := Trim(s), TrimOffset(s);
    if t == "[" {
      assert s[k] == '[';
      assert forall x :: 0 <= x < |s| && x != k ==> IsSpace(s[x]);
    }
    if IsLoneBracket(s) {
      var b :| 0 <= b < |s| && s[b] == '[' && forall x :: 0 <= x < |s| && x != b ==> IsSpace(s[x]);
      assert s[k] == t[0] && s[k + |t| - 1] == t[|t| - 1];
    }
  }

  /** The filter and the independent statement agree on every reply. */
  lemma AlertIffReference(s: string)
    ensures !IsEmptyResponse(Some(s)) <==> IsAlertText(s)
  {
    TrimEmptyIffAllSpace(s);
    NoResponseIgnoresPadding(s);
    LoneBracketIffTrimmed(s);
  }

  /** A missing reply and a blank reply are never alerts. */
  lemma MissingOrBlankIsEmpty(analysis: Option<string>)
    requires analysis.None? || AllSpace(analysis.value)
    ensures IsEmptyResponse(analysis)
  {
    if analysis.Some? {
      TrimEmptyIffAllSpace(analysis.value);
    }
  }

  /** "no response" anywhere in the reply, in any letter case, suppresses the alert. */
  lemma NoResponseAnywhereIsEmpty(s: string, i: int)
    requires OccursAt(LowerAscii(s), NO_RESPONSE, i)
    ensures IsEmptyResponse(Some(s))
  {
    AlertIffReference(s);
  }

  /** The reply the system prompt suggests for a safe call is filtered out. */
  lemma BracketedNoResponseIsEmpty()
    ensures IsEmptyResponse(Some("[No response]"))
  {
    var s := "[No response]";
    assert LowerAscii(s)[1..12] == NO_RESPONSE;
    NoResponseAnywhereIsEmpty(s, 1);
  }

  /** A lone bracket with white space around it is filtered out. */
  lemma PaddedBracketIsEmpty()
    ensures IsEmptyResponse(Some("  [ \n"))
  {
    var s := "  [ \n";
    assert s[2] == '[' && forall x :: 0 <= x < |s| && x != 2 ==> IsSpace(s[x]);
    LoneBracketIffTrimmed(s);
  }

  /** Two brackets are not a lone bracket: the reply is shown. */
  lemma DoubleBracketIsAlert()
    ensures !IsEmptyResponse(Some("[["))
  {
    assert Trim("[[") == "[[";
  }

  /** An ordinary alert text is shown. */
  lemma PlainAlertIsAlert()
    ensures !IsEmptyResponse(Some("Alert: scam"))
  {
    var s := "Alert: scam";
    assert !IsSpace(s[0]);
    assert LowerAscii(s)[0] == 'a';
    assert !OccursAt(LowerAscii(s), NO_RESPONSE, 0);
    forall k | 0 <= k < |s| ensures s[k] != '[' {
    }
    AlertIffReference(s);
  }

  /** The outcome of the gate. */
  datatype Begun = Skipped | Started(state: State, currentText: string)

  /** The gate at the head of a tick: `String(text || "")` must be non-empty, new, and no analysis may be in flight. */
  function Begin(st: State, text: Value): (b: Begun)
    ensures b.Skipped? <==> Coerce(text) == "" || Coerce(text) == st.lastAnalyzedText || st.isAnalyzing
    ensures b.Started? ==> b.currentText == Coerce(text) && b.currentText != st.lastAnalyzedText
    ensures b.Started? ==> b.state.isAnalyzing && b.state.results == st.results
                           && b.state.lastAnalyzedText == st.lastAnalyzedText
  {
    var currentText := Coerce(text);
    if currentText == "" || currentText == st.lastAnalyzedText || st.isAnalyzing then Skipped
    else Started(st.(isAnalyzing := true), currentText)
  }

  /** `[alert, ...prev].slice(0, 10)`: the newest alert first, then as many older ones as fit. */
  function Record(alert: Alert, prev: seq<Alert>): (r: seq<Alert>)
    ensures |r| == Min(|prev| + 1, HISTORY_LIMIT)
    ensures r[0] == alert
    ensures forall i :: 1 <= i < |r| ==> r[i] == prev[i - 1]
  {
    JsArray.Slice([alert] + prev, 0, HISTORY_LIMIT)
  }

  /** The history after `Record` is the new alert followed by the newest nine older ones, in their old order. */
  lemma RecordShape(alert: Alert, prev: seq<Alert>)
    ensures Record(alert, prev) == [alert] + prev[..Min(HISTORY_LIMIT - 1, |prev|)]
  {
    var r := Record(alert, prev);
    assert |r| == 1 + Min(HISTORY_LIMIT - 1, |prev|);
  }

  /** What the component keeps true: at most ten entries, every one a real alert. */
  ghost predicate Valid(st: State) {
    && |st.results| <= HISTORY_LIMIT
    && forall i :: 0 <= i < |st.results| ==> !IsEmptyResponse(st.results[i].analysis)
  }

  datatype Finished = Finished(state: State, service: OpenAIService.Service, request: Option<OpenAIService.ChatRequest>)

  /**
    The body of the tick after the gate: `await analyzeText(currentText)` against an
    endpoint that would answer `api`, then the history and `lastAnalyzedText`
    updates, and `isAnalyzing` lowered in `finally`. `timestamp` is the clock reading.
   */
  function Finish(st: State, svc: OpenAIService.Service, currentText: string,
                  api: OpenAIService.ApiOutcome, timestamp: string): (f: Finished)
    // The request, if any, carries the trimmed text; blank text sends nothing.
    ensures f.request.Some? <==> Trim(currentText) != ""
    ensures f.request.Some? ==> f.request.value.userContent == Trim(currentText)
    ensures !f.state.isAnalyzing
    // A thrown call leaves the text eligible and the history alone.
    ensures var threw := Trim(currentText) != "" && !(api.Completion? && |api.choices| > 0);
            threw ==> f.state.lastAnalyzedText == st.lastAnalyzedText && f.state.results == st.results
    ensures var threw := Trim(currentText) != "" && !(api.Completion? && |api.choices| > 0);
            !threw ==> f.state.lastAnalyzedText == currentText
    // The history grows exactly when the reply is a real alert, and then by that alert.
    ensures var alert := Trim(currentText) != "" && api.Completion? && |api.choices| > 0
                         && !IsEmptyResponse(api.choices[0].content);
            && (alert ==> f.state.results
                          == Record(Alert(timestamp, api.choices[0].content, Trim(currentText)), st.results))
            && (!alert ==> f.state.results == st.results)
  {
    var call := OpenAIService.AnalyzeText(svc, Str(currentText), api);
    var st' := st.(isAnalyzing := false);
    var st'' := match call.outcome
      case Threw(_) => st'
      case NoText => st'.(lastAnalyzedText := currentText)
      case Analysed(result) =>
        if IsEmptyResponse(result.analysis) then st'.(lastAnalyzedText := currentText)
        else st'.(results := Record(Alert(timestamp, result.analysis, result.analyzedText), st.results),
                  lastAnalyzedText := currentText);
    Finished(st'', call.service, call.request)
  }

  /** Recording a real alert keeps the history valid. */
  lemma RecordKeepsValid(alert: Alert, prev: seq<Alert>)
    requires |prev| <= HISTORY_LIMIT
    requires forall i :: 0 <= i < |prev| ==> !IsEmptyResponse(prev[i].analysis)
    requires !IsEmptyResponse(alert.analysis)
    ensures var r := Record(alert, prev);
            |r| <= HISTORY_LIMIT && forall i :: 0 <= i < |r| ==> !IsEmptyResponse(r[i].analysis)
  {
    var r := Record(alert, prev);
    forall i | 0 <= i < |r| ensures !IsEmptyResponse(r[i].analysis) {
      if i > 0 { assert r[i] == prev[i - 1]; }
    }
  }

  /** Finishing a tick keeps the history valid: only real alerts enter it, and it never exceeds ten. */
  lemma FinishKeepsValid(st: State, svc: OpenAIService.Service, currentText: string,
                         api: OpenAIService.ApiOutcome, timestamp: string)
    ensures Valid(st) ==> Valid(Finish(st, svc, currentText, api, timestamp).state)
  {
    if Valid(st) && Trim(currentText) != "" && api.Completion? && |api.choices| > 0
       && !IsEmptyResponse(api.choices[0].content) {
      RecordKeepsValid(Alert(timestamp, api.choices[0].content, Trim(currentText)), st.results);
    }
  }

  /** One whole tick: the gate, then the call and its bookkeeping. */
  function Tick(st: State, svc: OpenAIService.Service, text: Value,
                api: OpenAIService.ApiOutcome, timestamp: string): (f: Finished)
    ensures Begin(st, text).Skipped? ==> f == Finished(st, svc, None)
    ensures Begin(st, text).Started? ==> !f.state.isAnalyzing
    // A started tick analyses `String(text || "")` exactly as `Finish` describes.
    ensures Begin(st, text).Started? ==> (f.request.Some? <==> Trim(Coerce(text)) != "")
    ensures Begin(st, text).Started? && f.request.Some? ==> f.request.value.userContent == Trim(Coerce(text))
    ensures var threw := Trim(Coerce(text)) != "" && !(api.Completion? && |api.choices| > 0);
            Begin(st, text).Started? && threw ==>
              f.state.lastAnalyzedText == st.lastAnalyzedText && f.state.results == st.results
    ensures var threw := Trim(Coerce(text)) != "" && !(api.Completion? && |api.choices| > 0);
            Begin(st, text).Started? && !threw ==> f.state.lastAnalyzedText == Coerce(text)
    ensures var alert := Trim(Coerce(text)) != "" && api.Completion? && |api.choices| > 0
                         && !IsEmptyResponse(api.choices[0].content);
            Begin(st, text).Started? ==>
              && (alert ==> f.state.results
                            == Record(Alert(timestamp, api.choices[0].content, Trim(Coerce(text))), st.results))
              && (!alert ==> f.state.results == st.results)
  {
    match Begin(st, text)
    case Skipped => Finished(st, svc, None)
    case Started(st', currentText) => Finish(st', svc, currentText, api, timestamp)
  }

  /** Every tick keeps the history valid. */
  lemma TickKeepsValid(st: State, svc: OpenAIService.Service, text: Value,
                       api: OpenAIService.ApiOutcome, timestamp: string)
    requires Valid(st)
    ensures Valid(Tick(st, svc, text, api, timestamp).state)
  {
    if Begin(st, text).Started? {
      var st', currentText := Begin(st, text).state, Begin(st, text).currentText;
      assert Valid(st');
      FinishKeepsValid(st', svc, currentText, api, timestamp);
    }
  }

  /** While an analysis is in flight every further tick is skipped, whatever the text. */
  lemma InFlightBlocksTick(st: State, text: Value, text': Value)
    requires Begin(st, text).Started?
    ensures Begin(Begin(st, text).state, text').Skipped?
  {
  }

  /**
    A transcript of white space only is never sent, yet it is remembered, so the
    next tick on the same transcript is skipped.
   */
  lemma BlankTextIsRememberedNotSent(st: State, svc: OpenAIService.Service, text: Value,
                                     api: OpenAIService.ApiOutcome, api': OpenAIService.ApiOutcome,
                                     timestamp: string, timestamp': string)
    requires !st.isAnalyzing && Coerce(text) != st.lastAnalyzedText
    requires Coerce(text) != "" && AllSpace(Coerce(text))
    ensures var f := Tick(st, svc, text, api, timestamp);
            && f.request.None? && f.state.results == st.results
            && f.state.lastAnalyzedText == Coerce(text)
            && Tick(f.state, f.service, text, api', timestamp').request.None?
  {
    TrimEmptyIffAllSpace(Coerce(text));
  }

  /** An endpoint failure is retried: the next tick on the same transcript sends it again. */
  lemma FailureKeepsTextEligible(st: State, svc: OpenAIService.Service, text: Value,
                                 e: OpenAIService.Error, api': OpenAIService.ApiOutcome,
                                 timestamp: string, timestamp': string)
    requires !st.isAnalyzing && Coerce(text) != st.lastAnalyzedText && Trim(Coerce(text)) != ""
    ensures var f := Tick(st, svc, text, OpenAIService.ApiFailure(e), timestamp);
            && f.request.Some? && f.state == st
            && Tick(f.state, f.service, text, api', timestamp').request == f.request
  {
  }
}

=== FILE: worker.dfy ===
/**
  The speech-recognition worker of src/worker.js. It answers two message types:
  `load` (fetch tokenizer, processor and model, warm the model up) and `generate`
  (transcribe one audio window, streaming partial output). The vendor library is
  an oracle: `Fetch` says how each `from_pretrained` would end if started now,
  `LoadOracle` and `GenerateOracle` say what the download and the model produce.

  `getInstance` caches the promise returned by `from_pretrained` before awaiting
  it, so each component is fetched at most once and a failed fetch stays failed:
  a slot records the cached promise and whether it resolves.
 */
module Worker {
  import opened Base
  import opened JsValue

  const MODEL_ID := "onnx-community/whisper-base"
  const LOADING_MESSAGE := "Loading model..."
  const WARMUP_MESSAGE := "Compiling shaders and warming up model..."

  datatype Component = Tokenizer | Processor | Model

  /** A cached `from_pretrained` promise: not created yet, or created and resolving (`ok`) or rejecting. */
  datatype Slot = Unstarted | Started(ok: bool)

  /** The worker's state: the `processing` flag and the pipeline's three cached promises. */
  datatype WorkerState = WorkerState(processing: bool, tokenizer: Slot, processor: Slot, model: Slot)

  const Initial := WorkerState(false, Unstarted, Unstarted, Unstarted)

  function SlotOf(w: WorkerState, c: Component): Slot {
    match c
    case Tokenizer => w.tokenizer
    case Processor => w.processor
    case Model => w.model
  }

  /** How each `from_pretrained` call would end if it were started now. */
  datatype Fetch = Fetch(tokenizerOk: bool, processorOk: bool, modelOk: bool)

  function FetchOk(f: Fetch, c: Component): bool {
    match c
    case Tokenizer => f.tokenizerOk
    case Processor => f.processorOk
    case Model => f.modelOk
  }

  /** The pipeline's promises can all be awaited successfully. */
  predicate PipelineReady(w: WorkerState) {
    w.tokenizer == Started(true) && w.processor == Started(true) && w.model == Started(true)
  }

  /** The result of `getInstance`: the new state, the components whose fetch it started, and whether `Promise.all` resolves. */
  datatype Instance = Instance(state: WorkerState, started: set<Component>, ok: bool)

  /** `this.x ??= from_pretrained(...)` for each component, then `Promise.all`. */
  function GetInstance(w: WorkerState, f: Fetch): (r: Instance)
    ensures forall c :: c in r.started <==> SlotOf(w, c).Unstarted?
    ensures forall c :: SlotOf(w, c).Started? ==> SlotOf(r.state, c) == SlotOf(w, c)
    ensures forall c :: SlotOf(w, c).Unstarted? ==> SlotOf(r.state, c) == Started(FetchOk(f, c))
    ensures r.ok <==> PipelineReady(r.state)
    ensures r.state.processing == w.processing
  {
    var tokenizer := if w.tokenizer.Unstarted? then Started(f.tokenizerOk) else w.tokenizer;
    var processor := if w.processor.Unstarted? then Started(f.processorOk) else w.processor;
    var model := if w.model.Unstarted? then Started(f.modelOk) else w.model;
    var started := (if w.tokenizer.Unstarted? then {Tokenizer} else {})
                 + (if w.processor.Unstarted? then {Processor} else {})
                 + (if w.model.Unstarted? then {Model} else {});
    var w' := w.(tokenizer := tokenizer, processor := processor, model := model);
    Instance(w', started, PipelineReady(w'))
  }

  /** A message the worker posts to the page. */
  datatype Post =
    | Loading(data: Value)
    | Ready
    | Failed(data: Value)                                // status 'error'
    | Start
    | Update(output: Value, tps: Value, numTokens: nat)
    | Complete(output: Value)

  function StatusOf(p: Post): string {
    match p
    case Loading(_) => "loading"
    case Ready => "ready"
    case Failed(_) => "error"
    case Start => "start"
    case Update(_, _, _) => "update"
    case Complete(_) => "complete"
  }

  /** The object literal passed to `self.postMessage`. */
  function ToObject(p: Post): (o: Object)
    ensures Get(o, "status") == Str(StatusOf(p))
    ensures p.Loading? || p.Failed? ==> Get(o, "data") == p.data
    ensures p.Update? ==> Get(o, "output") == p.output && Get(o, "tps") == p.tps && Get(o, "numTokens") == Num(p.numTokens)
    ensures p.Complete? ==> Get(o, "output") == p.output
    ensures p.Ready? || p.Start? ==> o.Keys == {"status"}
  {
    var status := map["status" := Str(StatusOf(p))];
    match p
    case Loading(data) => status["data" := data]
    case Ready => status
    case Failed(data) => status["data" := data]
    case Start => status
    case Update(output, tps, numTokens) => status["output" := output]["tps" := tps]["numTokens" := Num(numTokens)]
    case Complete(output) => status["output" := output]
  }

  /** What one `postMessage` call did to the worker and which messages it posted. */
  datatype Step = Step(state: WorkerState, posts: seq<Post>, started: set<Component>)

  /** What the download and the warm-up would do: progress events, whether warm-up succeeds, the error message otherwise. */
  datatype LoadOracle = LoadOracle(fetch: Fetch, progress: seq<Value>, warmupOk: bool, errorMessage: Value)

  /** Each library progress event is forwarded wrapped as `{ status: 'loading', data: x }`. */
  function ProgressPosts(events: seq<Value>): (r: seq<Post>)
    ensures |r| == |events|
    ensures forall i :: 0 <= i < |r| ==> r[i] == Loading(events[i])
  {
    seq(|events|, i requires 0 <= i < |events| => Loading(events[i]))
  }

  /**
    `load()`. Progress events come only from fetches this call starts: a cached
    promise was created with an earlier callback.
   */
  function Load(w: WorkerState, o: LoadOracle): (r: Step)
    ensures |r.posts| >= 2 && r.posts[0] == Loading(Str(LOADING_MESSAGE))
    ensures r.posts[|r.posts| - 1].Ready? || r.posts[|r.posts| - 1].Failed?
    ensures forall i :: 0 <= i < |r.posts| - 1 ==> r.posts[i].Loading?
    ensures r.posts[|r.posts| - 1].Ready? <==> PipelineReady(r.state) && o.warmupOk
    ensures r.state.processing == w.processing
    ensures forall c :: c in r.started <==> SlotOf(w, c).Unstarted?
    ensures forall c :: SlotOf(w, c).Started? ==> SlotOf(r.state, c) == SlotOf(w, c)
    ensures forall c :: SlotOf(w, c).Unstarted? ==> SlotOf(r.state, c) == Started(FetchOk(o.fetch, c))
    // The library's progress events follow the first message, wrapped as 'loading'.
    ensures r.started != {} ==> 1 + |o.progress| < |r.posts| && r.posts[1..1 + |o.progress|] == ProgressPosts(o.progress)
    ensures r.started == {} ==> |r.posts| <= 3
    // The warm-up is announced once the pipeline is there, and 'error' carries the error's message.
    ensures PipelineReady(r.state) ==> r.posts[|r.posts| - 2] == Loading(Str(WARMUP_MESSAGE))
    ensures r.posts[|r.posts| - 1].Failed? ==> r.posts[|r.posts| - 1] == Failed(o.errorMessage)
    // Nothing else is posted: the first message, the forwarded progress, the warm-up notice and the final message.
    ensures |r.posts| == 2 + (if r.started != {} then |o.progress| else 0) + (if PipelineReady(r.state) then 1 else 0)
  {
    var inst := GetInstance(w, o.fetch);
    var progress := if inst.started != {} then ProgressPosts(o.progress) else [];
    var head := [Loading(Str(LOADING_MESSAGE))] + progress;
    if !inst.ok then Step(inst.state, head + [Failed(o.errorMessage)], inst.started)
    else if !o.warmupOk then Step(inst.state, head + [Loading(Str(WARMUP_MESSAGE)), Failed(o.errorMessage)], inst.started)
    else Step(inst.state, head + [Loading(Str(WARMUP_MESSAGE)), Ready], inst.started)
  }

  /** Once a fetch has failed, every later `load` ends in 'error' without fetching anything again. */
  lemma FailedLoadIsSticky(w: WorkerState, c: Component, o: LoadOracle)
    requires SlotOf(w, c) == Started(false)
    ensures Load(w, o).posts[|Load(w, o).posts| - 1].Failed?
  {
  }

  /** One streamed piece of output and the rate the clock would give for it. */
  datatype Token = Token(output: Value, rate: int)

  /**
    The streamer callback applied to each token in turn, with `numTokens` the
    counter before the first of them: the counter is incremented before it is
    posted, and a rate is computed only when it was already positive.
   */
  function Stream(tokens: seq<Token>, numTokens: nat): (r: seq<Post>)
    ensures |r| == |tokens|
    ensures forall i :: 0 <= i < |r| ==> r[i].Update? && r[i].output == tokens[i].output
    ensures forall i :: 0 <= i < |r| ==> r[i].numTokens == numTokens + i + 1
    ensures forall i :: 0 <= i < |r| ==> (r[i].tps == Undefined <==> numTokens + i == 0)
    decreases |tokens|
  {
    if |tokens| == 0 then []
    else
      var tps := if numTokens > 0 then Num(tokens[0].rate) else Undefined;
      [Update(tokens[0].output, tps, numTokens + 1)] + Stream(tokens[1..], numTokens + 1)
  }

  /**
    What transcription would do: how fetches would end (when `getInstance` still
    has to start them), the streamed tokens, and the decoded text, or `None` when
    the processor or the model throws.
   */
  datatype GenerateOracle = GenerateOracle(fetch: Fetch, tokens: seq<Token>, result: Option<Value>)

  /**
    `generate({ audio, language })`. A call while `processing` is set does nothing.
    Otherwise `processing` is set and 'start' posted before anything is awaited;
    a failure anywhere later ends the call with `processing` still set.
   */
  function Generate(w: WorkerState, o: GenerateOracle): (r: Step)
    ensures w.processing ==> r == Step(w, [], {})
    ensures forall c :: c in r.started <==> !w.processing && SlotOf(w, c).Unstarted?
    ensures forall c :: SlotOf(w, c).Started? ==> SlotOf(r.state, c) == SlotOf(w, c)
    ensures forall c :: !w.processing && SlotOf(w, c).Unstarted? ==> SlotOf(r.state, c) == Started(FetchOk(o.fetch, c))
    ensures !w.processing && GetInstance(w.(processing := true), o.fetch).ok && o.result.Some? ==>
              r.posts == [Start] + Stream(o.tokens, 0) + [Complete(o.result.value)] && !r.state.processing
    ensures !w.processing && GetInstance(w.(processing := true), o.fetch).ok && o.result.None? ==>
              r.posts == [Start] + Stream(o.tokens, 0) && r.state.processing
    ensures !w.processing && !GetInstance(w.(processing := true), o.fetch).ok ==>
              r.posts == [Start] && r.state.processing
  {
    if w.processing then Step(w, [], {})
    else
      var inst := GetInstance(w.(processing := true), o.fetch);
      if !inst.ok then Step(inst.state, [Start], inst.started)
      else
        var updates := Stream(o.tokens, 0);
        match o.result
        case None => Step(inst.state, [Start] + updates, inst.started)
        case Some(output) => Step(inst.state.(processing := false), [Start] + updates + [Complete(output)], inst.started)
  }

  /**
    Whatever happens, an accepted request posts 'start' first, then updates
    numbered from 1 whose first has no rate, and 'complete' only as the last
    message, which is exactly when `processing` is cleared again.
   */
  lemma GenerateMessageOrder(w: WorkerState, o: GenerateOracle)
    requires !w.processing
    ensures var r := Generate(w, o);
            && |r.posts| >= 1 && r.posts[0] == Start
            && (forall i :: 1 <= i < |r.posts| && !r.posts[i].Complete? ==>
                  r.posts[i].Update? && r.posts[i].numTokens == i && (r.posts[i].tps == Undefined <==> i == 1))
            && (forall i :: 0 <= i < |r.posts| && r.posts[i].Complete? ==> i == |r.posts| - 1)
            && (r.state.processing <==> !r.posts[|r.posts| - 1].Complete?)
  {
    var r := Generate(w, o);
    var updates := Stream(o.tokens, 0);
    if GetInstance(w.(processing := true), o.fetch).ok {
      assert forall i :: 1 <= i <= |updates| ==> r.posts[i] == updates[i - 1];
    }
  }

  /** A transcription that throws leaves `processing` set, so every later request is ignored. */
  lemma ThrowBlocksLaterGenerates(w: WorkerState, o: GenerateOracle, o': GenerateOracle)
    requires !w.processing && o.result.None?
    ensures Generate(w, o).state.processing
    ensures Generate(Generate(w, o).state, o') == Step(Generate(w, o).state, [], {})
  {
  }

  /** What the vendor library would do for whichever request comes in. */
  datatype Oracles = Oracles(load: LoadOracle, generate: GenerateOracle)

  /**
    The `message` listener: `load` and `generate` are dispatched, anything else is
    ignored. `generate(data)` destructures `data`, which throws before the
    function body runs when `data` is `undefined` or `null`.
   */
  function OnMessage(w: WorkerState, msg: Object, o: Oracles): (r: Step)
    ensures Get(msg, "type") == Str("load") ==> r == Load(w, o.load)
    ensures Get(msg, "type") != Str("load") && Get(msg, "type") != Str("generate") ==> r == Step(w, [], {})
    ensures Get(msg, "type") == Str("generate") && (Get(msg, "data").Undefined? || Get(msg, "data").Null?) ==>
              r == Step(w, [], {})
    ensures Get(msg, "type") == Str("generate") && !(Get(msg, "data").Undefined? || Get(msg, "data").Null?) ==>
              r == Generate(w, o.generate)
    ensures forall c :: c in r.started ==> SlotOf(w, c).Unstarted? && SlotOf(r.state, c).Started?
    ensures forall c :: SlotOf(w, c).Started? ==> SlotOf(r.state, c) == SlotOf(w, c)
  {
    var kind := Get(msg, "type");
    if kind == Str("load") then Load(w, o.load)
    else if kind == Str("generate") then
      var data := Get(msg, "data");
      if data.Undefined? || data.Null? then Step(w, [], {})
      else Generate(w, o.generate)
    else Step(w, [], {})
  }

  /** The worker's state after a sequence of messages. */
  function Run(w: WorkerState, msgs: seq<(Object, Oracles)>): WorkerState
    decreases |msgs|
  {
    if |msgs| == 0 then w
    else Run(OnMessage(w, msgs[0].0, msgs[0].1).state, msgs[1..])
  }

  /** How many times the fetch of `c` is started while the worker handles `msgs`. */
  function Starts(w: WorkerState, msgs: seq<(Object, Oracles)>, c: Component): nat
    decreases |msgs|
  {
    if |msgs| == 0 then 0
    else
      var r := OnMessage(w, msgs[0].0, msgs[0].1);
      (if c in r.started then 1 else 0) + Starts(r.state, msgs[1..], c)
  }

  /** A fetch that has been started stays cached with the same outcome. */
  lemma {:induction false} StartedStaysCached(w: WorkerState, msgs: seq<(Object, Oracles)>, c: Component)
    requires SlotOf(w, c).Started?
    ensures Starts(w, msgs, c) == 0
    ensures SlotOf(Run(w, msgs), c) == SlotOf(w, c)
    decreases |msgs|
  {
    if |msgs| > 0 {
      StartedStaysCached(OnMessage(w, msgs[0].0, msgs[0].1).state, msgs[1..], c);
    }
  }

  /** Whatever messages arrive, each of tokenizer, processor and model is fetched at most once. */
  lemma {:induction false} FetchedAtMostOnce(w: WorkerState, msgs: seq<(Object, Oracles)>, c: Component)
    ensures Starts(w, msgs, c) <= 1
    ensures SlotOf(w, c).Started? ==> Starts(w, msgs, c) == 0
    decreases |msgs|
  {
    if SlotOf(w, c).Started? {
      StartedStaysCached(w, msgs, c);
    } else if |msgs| > 0 {
      var r := OnMessage(w, msgs[0].0, msgs[0].1);
      FetchedAtMostOnce(r.state, msgs[1..], c);
    }
  }
}
